=== FILE: README.md ===
# PrintDirTree, modelled in Dafny

PrintDirTree prints a directory as a tree in the style of the Unix `tree`
command, with a root line, then `├── ` / `└── ` branch glyphs, and `│   ` /
four-space prefixes. It leaves out directory and file patterns taken from
stored preferences and the command line. Optionally it appends the text of
every file shown. The repository holds three generations of the printer.
This project models all three and proves what they print:

- `printdirtree/__main__.py` is the current program. It prunes by path
  patterns, sorts every directory's entries by code point, supports
  directories-only output, and can capture file contents.
- `build/lib/printdirtree/__main__.py` is the earlier packaged program. It
  filters by bare name, then sorts, and has no contents option.
- `print_directory.py` is the first script. It indents by four spaces per
  level and puts directories in brackets. It does no sorting and silently
  skips directories it may not list.

The filesystem is an immutable tree (`FsTree.Node`). A file carries the
outcome of reading it as UTF-8. A directory carries its entries, in the order
a listing returns them, and a flag for whether it may be listed at all.
`fnmatch.fnmatch` is modelled in full (`Glob`): `*`, `?`, `[...]`, `[!...]`,
ranges, and the literal `[`.

Both `print_dir_structure` walkers are one engine, `TreeWalk.Walk`. Its rule
datatype is `Exclusion.Rules`: path rules for the current walker and name rules
for the earlier one. The earlier walker is also written out as it stands in
its source (`EarlierWalker.EarlierTree`, which filters first and sorts
afterwards). It is proved to print exactly what the engine prints under name
rules.

The engine is proved against an independent reference,
`TreeWalk.Preorder`. That is the list of depth-first visits: each records the
entry, the names on its path, and which of its enclosing directories were the
last entry of their own directory. Every property of what is printed is
proved on that list:

- which entries appear;
- their order and glyphs;
- their prefixes;
- the captured contents;
- when the walk fails.

A directory the current or earlier walker cannot list raises an uncaught
exception in the source. The model returns `Failure` with that directory's
path relative to the scan root. The first script catches this case, and the
model prints nothing beneath such a directory.

Three details of what the programs do:

- A `--dir` that is not a directory prints
  `The specified directory does not exist: <path>` and the run ends normally,
  with no failure status (printdirtree/__main__.py:226-228,
  `Program.CurrentMain`).
- A directory that cannot be listed is not reported as a structured error:
  the exception from `os.listdir` escapes (printdirtree/__main__.py:147,
  `TreeWalk.Walk` returns `Failure`).
- A captured file's key is `os.path.relpath(item, root)`
  (printdirtree/__main__.py:184). For entry names without `/` it equals the
  relative path the walker builds, and that path is what the model stores.

## Model

| member | source | states |
|---|---|---|
| Glob.PlainPatternMatchesOnlyItself | printdirtree/__main__.py:81-85 | a pattern without `*`, `?` or `[` matches a name exactly when the name equals it |
| Glob.StarMatchesEverything | printdirtree/__main__.py:81-85 | `*` matches every name, the empty name and names with `/` included |
| Glob.SuffixPattern | printdirtree/__main__.py:81-85 | `*` followed by plain text matches exactly the names that end in that text |
| Glob.PrefixPattern | printdirtree/__main__.py:81-85 | plain text followed by `*` matches exactly the names that start with that text |
| Glob.QuestionMatchesOneChar | printdirtree/__main__.py:81-85 | `?` matches exactly the one-character names |
| Glob.RangeExamples | printdirtree/__main__.py:81-85 | `[a-c]` accepts `b` and rejects `d`; `[!a-c]` does the opposite |
| Glob.BracketEdgeCases | printdirtree/__main__.py:81-85 | a reversed range matches nothing (as in recent Python releases), a `]` first in a class is a member, and an unclosed `[` is an ordinary character |
| Glob.LiteralsMatchExactly | printdirtree/__main__.py:81-85 | a run of literal tokens matches a string exactly when the string spells it |
| Glob.AnyRunSplits | printdirtree/__main__.py:81-85 | a leading `*` matches a string exactly when the rest of the pattern matches some suffix of it |
| Glob.Matches | printdirtree/__main__.py:85 | `fnmatch.fnmatch`: compile the pattern to tokens and match the whole name; characterised by the `Glob` lemmas above |
| Exclusion.PlainFilePattern | printdirtree/__main__.py:81-85 | a single plain file pattern excludes exactly the file name it spells |
| Exclusion.FileExcluded | printdirtree/__main__.py:81-85 | some file pattern glob-matches the name; characterised by `PlainFilePattern`, `LicenseExample` and `ExclusionMonotone` |
| Exclusion.LicenseExample | printdirtree/__main__.py:11-14 | the default file pattern `LICENSE` hides `LICENSE` and not `README_LICENSE` |
| Exclusion.ExclusionMonotone | printdirtree/__main__.py:81-108 | adding patterns never un-excludes a file name or a path |
| Exclusion.PathExcluded | printdirtree/__main__.py:88-108 | the three tests of `path_should_be_excluded`; characterised by `PathExcludedByComponents`, `AnyDepth` and `PlainSlashPattern` |
| Exclusion.Keeps | printdirtree/__main__.py:153-159 | an entry is kept unless its relative path is excluded by the directory patterns or, being a file, its name by the file patterns; under name rules (build/lib/printdirtree/__main__.py:95-96) unless its name is in the directory set or is excluded by the file patterns, directory or not; characterised by `KeptEntries` |
| Exclusion.PathExcludedByComponents | printdirtree/__main__.py:88-108 | a path is excluded exactly when it is a pattern, or matches a pattern containing `/`, or one of its components matches a pattern |
| Exclusion.AnyDepth | printdirtree/__main__.py:102-105 | a component matching a pattern excludes the whole path, whatever its depth |
| Exclusion.PlainSlashPattern | printdirtree/__main__.py:98-101 | a plain pattern with `/` excludes exactly the path it spells |
| Exclusion.NestedPathExample | printdirtree/__main__.py:98-101 | `src/build` excludes the path `src/build` and not `lib/build` |
| Exclusion.NodeModulesExample | printdirtree/__main__.py:102-105 | `node_modules` excludes the directory `pkg/node_modules` |
| Exclusion.BeneathComponent | printdirtree/__main__.py:102-105 | a plain, slash-free pattern naming a directory excludes every path that has that directory as a component: under any directories above it (or none) and at any depth below it, the directory's own path included |
| Exclusion.ExactTierExample | printdirtree/__main__.py:93-95 | the exact-path check catches `a[b]`, which as a glob does not match itself |
| Exclusion.GlobVersusExactName | build/lib/printdirtree/__main__.py:95-96 | the pattern `node_*` hides `node_modules` in the current walker but not in the earlier one, which compares names exactly |
| Exclusion.FilePatternOnDirectories | build/lib/printdirtree/__main__.py:95-96 | the earlier walker hides a directory named `LICENSE`; the current walker applies file patterns to files only |
| Paths.Split | printdirtree/__main__.py:104 | splitting always yields at least one component |
| Paths.SplitJoin | printdirtree/__main__.py:104 | splitting a joined path on `/` gives back its components |
| Paths.ChildPath | printdirtree/__main__.py:152 | an entry's path relative to the scan root: its name at the top, otherwise the parent's path, `/`, and the name; characterised by `ChildPathJoin` |
| Paths.ChildPathJoin | printdirtree/__main__.py:152 | the relative path built entry by entry is the `/`-join of the names on the way |
| Paths.Basename | printdirtree/__main__.py:230 | the root line is the slash-free suffix of the argument after its last `/` |
| Paths.BasenameOfJoin | printdirtree/__main__.py:230 | the basename of a joined path is its last component |
| FsTree.NameLeTotal | printdirtree/__main__.py:150 | any two names are ordered by code point one way or the other |
| FsTree.NameLeTransitive | printdirtree/__main__.py:150 | the code-point order of names is transitive |
| FsTree.NameLeAntisymmetric | printdirtree/__main__.py:150 | two names ordered both ways are equal |
| FsTree.SortByName | printdirtree/__main__.py:150 | sorting yields a permutation of the entries in ascending code-point order that keeps names distinct |
| FsTree.SortedStrictly | printdirtree/__main__.py:150 | entries with distinct names sort strictly ascending |
| FileText.Strip | printdirtree/__main__.py:117 | the result is the input with the maximal runs of whitespace removed at both ends |
| FileText.StripIdempotent | printdirtree/__main__.py:117 | stripping twice is stripping once |
| FileText.StripKeepsTrimmedText | printdirtree/__main__.py:117 | text without whitespace at either end is left unchanged |
| FileText.ReadFileContents | printdirtree/__main__.py:111-121 | decoded text is shown stripped, an undecodable file as `[Binary file]`, and any other failure as `[Error reading file: <reason>]` |
| TreeWalk.KeptEntries | printdirtree/__main__.py:150-161 | an entry survives exactly when the rules keep it, and the survivors are a subsequence of the input: its order is kept, and so are ascending order and distinct names |
| TreeWalk.Directories | printdirtree/__main__.py:163-165 | with directories only, exactly the directories survive, as a subsequence of the input in its order |
| TreeWalk.Survivors | printdirtree/__main__.py:147-165 | the listed entries are exactly the kept children (only directories with `dirs_only`), strictly ascending by name |
| TreeWalk.SubsequenceOrder | print_directory.py:15 | two elements of a subsequence sit in the full list in the same order |
| TreeWalk.Walk | printdirtree/__main__.py:124-188 | `print_dir_structure`: fails when a listing raises, otherwise walks the survivors; characterised by `WalkAgrees` (which names the failing directory) and `RenderMatchesVisits` |
| TreeWalk.WalkEntries | printdirtree/__main__.py:167-188 | the loop over the survivors with the glyph, the extended prefix and the captures; characterised by `WalkEntriesAgree` |
| WalkProperties.FirstBlockedIsFirst | printdirtree/__main__.py:147 | the failing path named by the walk is that of a visited directory that cannot be listed, with every visit before it listable, and is empty when there is none |
| WalkProperties.FirstBlockedAppend | printdirtree/__main__.py:147 | the first unlistable directory of two blocks in a row lies in the first block unless that block is fully listable |
| WalkProperties.WalkEntriesAgree | printdirtree/__main__.py:167-188 | the loop over a list of survivors prints exactly their pre-order visits' lines and captures, and fails exactly when one of the visited directories cannot be listed, with the relative path of the first such directory |
| WalkProperties.WalkAgrees | printdirtree/__main__.py:124-188 | the walk prints exactly one line per pre-order visit and captures exactly the visited files when asked; it fails exactly when the directory or a visited directory cannot be listed, with the relative path of the directory itself when it cannot be listed and otherwise with that of the first visited directory that cannot |
| WalkShape.PreorderBeneath | printdirtree/__main__.py:150-177 | every visit lies beneath its start: its own entry and every directory above it were kept, and with `dirs_only` it is a directory |
| RenderFacts.RenderMatchesVisits | printdirtree/__main__.py:124-188 | from the scan root, the printed lines are the visits' lines, one for one; a failure names the first visited directory that cannot be listed, or is empty when the root itself cannot be |
| RenderFacts.TreeIgnoresShowContents | printdirtree/__main__.py:183-186 | asking for contents never changes the tree, and without it nothing is captured |
| RenderFacts.DirsOnlyRendersDirectories | printdirtree/__main__.py:163-165 | with `dirs_only` every printed entry is a directory and nothing is captured |
| RenderFacts.CapturesFollowFileVisits | printdirtree/__main__.py:183-186 | one capture per printed file, in print order, keyed by its relative path and holding its shown contents |
| RenderFacts.IndentationShape | printdirtree/__main__.py:172 | each enclosing level adds exactly four characters, all spaces or `│` |
| RenderFacts.IndentationAt | printdirtree/__main__.py:172 | the four characters of level k of a prefix are four spaces when the enclosing directory at that depth was the last survivor and `│   ` otherwise |
| RenderFacts.IndentationPrefix | printdirtree/__main__.py:172-175 | the prefix passed down only grows: extending the flags extends the prefix |
| RenderFacts.ContinuationPrefix | printdirtree/__main__.py:172-175 | every line in the block beneath a directory starts with that directory's prefix followed by four spaces when it is the last survivor and by `│   ` otherwise |
| RenderFacts.LineLayout | printdirtree/__main__.py:170-172 | a line at depth n starts with a 4n-character prefix, then the glyph, then the name |
| RenderFacts.DirectoryLevel | printdirtree/__main__.py:167-181 | a directory's lines one level down are exactly its kept entries in strictly ascending order, and only the last has `└── ` |
| RenderFacts.NothingExcludedIsRendered | printdirtree/__main__.py:155-159 | no printed entry, and no directory above one, has an excluded path, and no printed file matches a file pattern |
| RenderFacts.NoExcludedNameIsRendered | build/lib/printdirtree/__main__.py:95-96 | in the earlier walker, no printed entry or enclosing directory has a name in the directory set or matching a file pattern |
| Output.TreeText | printdirtree/__main__.py:144-145 | printed text ends in a newline exactly when something was printed |
| Output.TreeTextAppend | printdirtree/__main__.py:177 | printing two runs of lines one after the other is their texts concatenated |
| Output.TreeTextReadsBack | printdirtree/__main__.py:144-145 | the printed tree splits back into exactly its lines when no line holds a newline |
| Output.CaptureBlock | printdirtree/__main__.py:245 | the body is the block's format: a newline, `# ` and the path, then the contents on their own line; characterised with the section by `ContentsSectionAppend` and `Assemble` |
| Output.ContentsSection | printdirtree/__main__.py:244-245 | one `# path` block per capture, in order; characterised by `ContentsSectionAppend` and `Assemble` |
| Output.ContentsSectionAppend | printdirtree/__main__.py:244-245 | the contents section of two capture lists is their sections concatenated |
| Output.Assemble | printdirtree/__main__.py:230-245 | the output starts with the root's name on its own line, then the tree; a blank line and one `# path` block per capture follow only when contents were asked for and captured; otherwise the layout is the earlier program's |
| Output.AssembleTree | build/lib/printdirtree/__main__.py:152-154 | the earlier output is the root's name on its own line followed by the tree |
| Preferences.Update | printdirtree/__main__.py:73-76 | a pattern is excluded after the update exactly when it was before or was passed to `--exclude-*` |
| Preferences.IncludeBack | printdirtree/__main__.py:35-38 | a pattern is excluded after including back exactly when it was before and was not passed to `--include-*` |
| Preferences.Effective | printdirtree/__main__.py:222-223 | the exclude update followed by the include-back; characterised by `EffectiveMembers` and `AdjustIdempotent` |
| Preferences.EffectiveMembers | printdirtree/__main__.py:222-223 | a pattern is in effect exactly when it was stored or added and was not included back |
| Preferences.AdjustIdempotent | printdirtree/__main__.py:222-223 | applying the same command line twice changes nothing more |
| Preferences.IncludeUndoesExclude | build/lib/printdirtree/__main__.py:35-38 | including back newly added patterns restores the preferences |
| Preferences.AdjustMonotone | printdirtree/__main__.py:69-78 | adding patterns only hides more files; including back only shows more |
| Preferences.DefaultsContents | printdirtree/__main__.py:11-14 | the defaults hold eight directory names and the file pattern `LICENSE`, which hides exactly files called `LICENSE` |
| EarlierWalker.Listing | build/lib/printdirtree/__main__.py:94-100 | the listed entries are exactly the children whose names pass both tests (only directories with `dirs_only`), strictly ascending |
| EarlierWalker.EarlierTree | build/lib/printdirtree/__main__.py:88-113 | the earlier `print_dir_structure` as written: filter by name, sort, keep directories, recurse; characterised by `EarlierMatchesEngine` |
| EarlierWalker.EarlierEntries | build/lib/printdirtree/__main__.py:102-111 | the loop over the listed entries: a line per entry, a directory's subtree after its line, files dropped with `dirs_only`; characterised by `EarlierEntriesMatch` |
| EarlierWalker.EarlierEntriesMatch | build/lib/printdirtree/__main__.py:102-111 | the earlier loop over a listing gives exactly the text of the engine's loop over the same entries under name rules, or the same failure |
| EarlierWalker.EarlierOutput | build/lib/printdirtree/__main__.py:152-154 | a successful earlier run starts with the root's name on its own line, and the run fails exactly when the walk does |
| EarlierWalker.AscendingUnique | build/lib/printdirtree/__main__.py:97 | two strictly ascending lists with the same members are equal |
| EarlierWalker.ListingIsSurvivors | build/lib/printdirtree/__main__.py:94-100 | filtering and then sorting lists the same entries as sorting and then filtering |
| EarlierWalker.EarlierMatchesEngine | build/lib/printdirtree/__main__.py:88-113 | the earlier walker prints exactly the engine's lines under name rules, and fails with the same relative path |
| IndentPrinter.Pad | print_directory.py:24 | the indentation is four spaces per level |
| IndentPrinter.Listed | print_directory.py:15 | the listed entries are exactly the children whose names are not excluded, files and directories alike, as a subsequence of the directory listing in its order (no sorting) |
| IndentPrinter.PrintStructure | print_directory.py:6-28 | every line printed at level n starts with 4n spaces |
| IndentPrinter.PrintDirectory | print_directory.py:30-35 | the header is printed first; the run completes exactly when the start path is a directory |
| IndentPrinter.Label | print_directory.py:24-28 | the body is the format: a directory's name in square brackets, a file's name as it is |
| IndentPrinter.PrintItems | print_directory.py:20-28 | every line of the loop starts with four spaces per level; characterised by `PrintsEntries` |
| IndentPrinter.PrintsEntries | print_directory.py:20-28 | one line per entry: its name, in brackets for a directory, after four spaces per enclosing directory |
| IndentPrinter.EntriesBeneath | print_directory.py:14-15 | no printed entry, and no directory it lies in, has an excluded name |
| IndentPrinter.DirectoryLevel | print_directory.py:14-25 | a listable directory's entries one level down are exactly its non-excluded children, and any two of them appear in the order the listing returns them; a directory it may not list prints nothing beneath its own line |
| Program.CurrentMain | printdirtree/__main__.py:225-251 | a path that is not a directory prints only the not-found message; otherwise the output starts with the root's name on its own line |
| Program.CurrentMainPrints | printdirtree/__main__.py:222-251 | the output is the root line, one line per visit under the effective preferences, and the captured files when asked; the run fails exactly when a visited directory cannot be listed, naming the first such directory (empty for the root) |
| Program.NoContentsSection | printdirtree/__main__.py:240-245 | with `--dirs-only` or without `--show-contents`, the output is exactly the root line and one line per visit, with nothing after the tree, and the run fails exactly when a visited directory cannot be listed |
| Program.EarlierMain | build/lib/printdirtree/__main__.py:147-160 | a path that is not a directory prints only the not-found message; otherwise the output starts with the root's name on its own line |
| Program.EarlierMainPrints | build/lib/printdirtree/__main__.py:144-160 | the earlier output is the root line and one line per visit under name rules, failing exactly when a visited directory cannot be listed, naming the first such directory (empty for the root) |
| Program.EarlierOutputPrints | build/lib/printdirtree/__main__.py:152-154 | once the directory is found, the earlier output is the root's name and one line per visit under name rules, or the relative path of the first visited directory that cannot be listed (empty for the root) |
| VersionAgreement.PlainPathExcluded | printdirtree/__main__.py:88-108 | for plain directory names, a path under kept directories is excluded exactly when its last name is one of them |
| VersionAgreement.KeptEntriesAgree | printdirtree/__main__.py:150-161 | under those conditions both rule sets keep the same entries |
| VersionAgreement.WalksAgree | printdirtree/__main__.py:124-188 | for plain directory names, when no directory's name matches a file pattern, both walkers print the same lines and fail alike |
| VersionAgreement.ProgramsAgree | printdirtree/__main__.py:225-251 | under those conditions and without `--show-contents`, the current and earlier programs print the same text |
| VersionAgreement.DefaultsArePlain | printdirtree/__main__.py:11-14 | the default directory names are plain names |

## Left out

- Argument parsing, `--view-exclusions`, clipboard copying and its message, and the process exit: the model starts from parsed options (`Program.Invocation`) and returns the printed text.
- Loading and saving the JSON preferences file, including the load error message: preferences are a parameter (`Preferences.Defaults` when no file exists). The `--save` writes are not modelled.
- Reading a file: the outcome of opening and decoding it is part of the file node (`FsTree.ReadResult`), and the exception message is a parameter.
- Symbolic links, special files, Windows path separators and case folding: an entry is a file or a directory, and paths use `/`.
- Listing order of the first script: it is the order of a directory's children in the model, because the operating system leaves it unspecified.
- The first script's hard-coded start path: it is a parameter of `IndentPrinter.PrintDirectory`.
- A missing start path, or one that is a file, raises in the first script: the model records only that the run did not complete.
- Listing errors other than a directory that may not be listed: a directory removed during the walk, or an I/O error, aborts `print_directory.py` (print_directory.py:14-18 catches only `PermissionError`) and the two walkers alike; the model's directory is either listable or not.
- File names that are not valid UTF-8: a listing decodes such a name with `surrogateescape` into lone surrogates, which a Dafny string cannot hold, so those names are not represented. Under a UTF-8 locale, printing them raises `UnicodeEncodeError`, which aborts all three programs: the walkers at their final `print` (printdirtree/__main__.py:251), the first script mid-listing (print_directory.py:28). They would also sort between U+D7FF and U+E000, which `FsTree.NameLe` does not model.
- Reversed ranges in patterns: older Python releases reject a pattern such as `[z-a]` with `re.error` (the package allows Python 3.6), where the model, like recent releases, lets it match nothing.
- IndentPrinter.PrintStructure: it bounds every line from below by the indentation. The exact content of each line is stated by `IndentPrinter.PrintsEntries`.

=== FILE: earlier_walker.dfy ===
/** The earlier walker: filter entries by name, sort the survivors, keep only
    directories when asked, and print one line per entry. */
module EarlierWalker {
  import opened Wrappers
  import opened Paths
  import opened FsTree
  import opened Exclusion
  import opened TreeWalk
  import opened Output

  /** The entries of `d` the earlier walker lists, in the order it lists
      them: filtered by name first, sorted second. */
  function Listing(dirs: set<string>, files: set<string>, d: Node, dirsOnly: bool): (r: seq<Node>)
    requires d.Dir?
    ensures forall e :: e in r <==>
              e in d.children && e.name !in dirs && !FileExcluded(e.name, files) && (dirsOnly ==> e.Dir?)
    ensures Ascending(r)
    ensures DistinctNames(d.children) ==> StrictlyAscending(r)
  {
    var filtered := KeptEntries(NameRules(dirs, files), "", d.children);
    var sorted := SortByName(filtered);
    assert forall e :: e in sorted <==> e in filtered by {
      forall e ensures e in sorted <==> e in filtered {
        assert e in sorted <==> e in multiset(sorted);
        assert e in filtered <==> e in multiset(filtered);
      }
    }
    SortedListing(filtered);
    if dirsOnly then Directories(sorted) else sorted
  }

  lemma SortedListing(s: seq<Node>)
    ensures DistinctNames(s) ==> StrictlyAscending(SortByName(s)) && StrictlyAscending(Directories(SortByName(s)))
  {
    if DistinctNames(s) {
      SortedStrictly(s);
      DirectoriesStrictly(SortByName(s));
    }
  }

  lemma DirectoriesStrictly(s: seq<Node>)
    requires StrictlyAscending(s) && DistinctNames(s)
    ensures StrictlyAscending(Directories(s))
  {
    var r := Directories(s);
    forall i, j | 0 <= i < j < |r| ensures NameLt(r[i].name, r[j].name) {
      assert NameLe(r[i].name, r[j].name);
    }
  }

  /** The earlier `print_dir_structure(dir_path, ..., prefix, dirs_only)`:
      the text it returns, or the path of the directory it could not list. */
  function EarlierTree(dirs: set<string>, files: set<string>, d: Node, rel: string, prefix: string, dirsOnly: bool)
    : Result<string, string>
    decreases d, 1
  {
    if !d.Dir? || !d.listable then Failure(rel)
    else EarlierEntries(dirs, files, d, Listing(dirs, files, d, dirsOnly), rel, prefix, dirsOnly)
  }

  function EarlierEntries(dirs: set<string>, files: set<string>, parent: Node, entries: seq<Node>,
                          rel: string, prefix: string, dirsOnly: bool): Result<string, string>
    requires parent.Dir?
    requires forall e :: e in entries ==> e in parent.children
    decreases parent, 0, |entries|
  {
    if |entries| == 0 then Success("")
    else
      var c := entries[0];
      var last := |entries| == 1;
      var line := prefix + Glyph(last) + c.name + [Newline];
      ChildBelow(c, parent);
      if c.Dir? then
        var sub :- EarlierTree(dirs, files, c, ChildPath(rel, c.name), prefix + Extension(last), dirsOnly);
        var rest :- EarlierEntries(dirs, files, parent, entries[1..], rel, prefix, dirsOnly);
        Success(line + sub + rest)
      else if !dirsOnly then
        var rest :- EarlierEntries(dirs, files, parent, entries[1..], rel, prefix, dirsOnly);
        Success(line + rest)
      else
        EarlierEntries(dirs, files, parent, entries[1..], rel, prefix, dirsOnly)
  }

  /** The earlier `main` once the directory was found: the root's name, then
      the tree. */
  function EarlierOutput(dirs: set<string>, files: set<string>, path: string, root: Node, dirsOnly: bool)
    : (r: Result<string, string>)
    ensures r.Success? ==> |r.value| > |Basename(path)| && r.value[..|Basename(path)| + 1] == Basename(path) + [Newline]
    ensures r.Failure? <==> EarlierTree(dirs, files, root, "", "", dirsOnly).Failure?
  {
    var tree :- EarlierTree(dirs, files, root, "", "", dirsOnly);
    PrefixKept(Basename(path) + [Newline], tree, |Basename(path)| + 1);
    Success(Basename(path) + [Newline] + tree)
  }

  // ---------------------------------------------------------------------------
  // Filtering before sorting lists the same entries as sorting before filtering
  // ---------------------------------------------------------------------------

  /** Two strictly ascending lists with the same members are the same list. */
  lemma {:induction false} AscendingUnique(a: seq<Node>, b: seq<Node>)
    requires StrictlyAscending(a) && StrictlyAscending(b)
    requires forall e :: e in a <==> e in b
    ensures a == b
    decreases |a|
  {
    EmptyTogether(a, b);
    if |a| > 0 {
      SameHead(a, b);
      forall e ensures e in a[1..] <==> e in b[1..] {
        if e in a[1..] { SameTailMember(a, b, e); }
        if e in b[1..] { SameTailMember(b, a, e); }
      }
      AscendingUnique(a[1..], b[1..]);
      assert a == [a[0]] + a[1..] && b == [b[0]] + b[1..];
    }
  }

  lemma EmptyTogether(a: seq<Node>, b: seq<Node>)
    requires forall e :: e in a <==> e in b
    ensures |a| == 0 <==> |b| == 0
  {
    if |a| > 0 { assert a[0] in b; }
    if |b| > 0 { assert b[0] in a; }
  }

  /** The least member comes first in both lists. */
  lemma SameHead(a: seq<Node>, b: seq<Node>)
    requires StrictlyAscending(a) && StrictlyAscending(b)
    requires forall e :: e in a <==> e in b
    requires |a| > 0 && |b| > 0
    ensures a[0] == b[0]
  {
    assert a[0] in b && b[0] in a;
    var j :| 0 <= j < |b| && b[j] == a[0];
    var i :| 0 <= i < |a| && a[i] == b[0];
    if j > 0 {
      assert NameLt(b[0].name, b[j].name);
      if i > 0 {
        assert NameLt(a[0].name, a[i].name);
        NameLeAntisymmetric(a[0].name, b[0].name);
      }
    }
  }

  lemma SameTailMember(a: seq<Node>, b: seq<Node>, e: Node)
    requires StrictlyAscending(a)
    requires forall x :: x in a <==> x in b
    requires |a| > 0 && |b| > 0 && a[0] == b[0]
    requires e in a[1..]
    ensures e in b[1..]
  {
    var k :| 0 <= k < |a[1..]| && a[1..][k] == e;
    assert a[k + 1] == e && NameLt(a[0].name, e.name);
    assert e in a;
    var m :| 0 <= m < |b| && b[m] == e;
    assert m != 0 && b[1..][m - 1] == e;
  }

  /** For a well-formed directory the earlier walker lists exactly what the
      current engine lists under name rules. */
  lemma ListingIsSurvivors(dirs: set<string>, files: set<string>, d: Node, rel: string, dirsOnly: bool)
    requires d.Dir? && DistinctNames(d.children)
    ensures Listing(dirs, files, d, dirsOnly) == Survivors(NameRules(dirs, files), d, rel, dirsOnly)
  {
    AscendingUnique(Listing(dirs, files, d, dirsOnly), Survivors(NameRules(dirs, files), d, rel, dirsOnly));
  }

  /** The text of a rendering, or the failure unchanged. */
  function TextOf(w: Result<Rendering, string>): Result<string, string> {
    if w.Success? then Success(TreeText(w.value.lines)) else Failure(w.error)
  }

  /** The earlier walker prints exactly the lines of the current engine run
      under name rules without contents, and fails on the same directory. */
  lemma {:induction false} EarlierMatchesEngine(dirs: set<string>, files: set<string>, d: Node, rel: string,
                                               prefix: string, dirsOnly: bool)
    requires WellFormed(d)
    ensures EarlierTree(dirs, files, d, rel, prefix, dirsOnly)
         == TextOf(Walk(NameRules(dirs, files), d, prefix, rel, Options(dirsOnly, false)))
    decreases d, 1
  {
    if d.Dir? && d.listable {
      ListingIsSurvivors(dirs, files, d, rel, dirsOnly);
      EarlierEntriesMatch(dirs, files, d, Listing(dirs, files, d, dirsOnly), rel, prefix, dirsOnly);
    }
  }

  lemma {:induction false} EarlierEntriesMatch(dirs: set<string>, files: set<string>, parent: Node, entries: seq<Node>,
                                              rel: string, prefix: string, dirsOnly: bool)
    requires parent.Dir? && WellFormed(parent)
    requires forall e :: e in entries ==> e in parent.children
    ensures EarlierEntries(dirs, files, parent, entries, rel, prefix, dirsOnly)
         == TextOf(WalkEntries(NameRules(dirs, files), parent, entries, prefix, rel, Options(dirsOnly, false)))
    decreases parent, 0, |entries|
  {
    if |entries| > 0 {
      var c := entries[0];
      var last := |entries| == 1;
      assert c in entries;
      ChildBelow(c, parent);
      var k :| 0 <= k < |parent.children| && parent.children[k] == c;
      assert WellFormed(c);
      EarlierEntriesMatch(dirs, files, parent, entries[1..], rel, prefix, dirsOnly);
      if c.Dir? {
        EarlierMatchesEngine(dirs, files, c, ChildPath(rel, c.name), prefix + Extension(last), dirsOnly);
        EarlierDirEntry(dirs, files, parent, entries, rel, prefix, dirsOnly);
      } else if !dirsOnly {
        EarlierFileEntry(dirs, files, parent, entries, rel, prefix, dirsOnly);
      }
    }
  }

  /** The first entry is a directory: both sides put its line, its own block
      and the rest of the level one after the other. */
  lemma EarlierDirEntry(dirs: set<string>, files: set<string>, parent: Node, entries: seq<Node>,
                        rel: string, prefix: string, dirsOnly: bool)
    requires parent.Dir? && |entries| > 0 && entries[0].Dir?
    requires forall e :: e in entries ==> e in parent.children
    requires var c := entries[0]; var last := |entries| == 1;
             EarlierTree(dirs, files, c, ChildPath(rel, c.name), prefix + Extension(last), dirsOnly)
             == TextOf(Walk(NameRules(dirs, files), c, prefix + Extension(last), ChildPath(rel, c.name), Options(dirsOnly, false)))
    requires EarlierEntries(dirs, files, parent, entries[1..], rel, prefix, dirsOnly)
          == TextOf(WalkEntries(NameRules(dirs, files), parent, entries[1..], prefix, rel, Options(dirsOnly, false)))
    ensures EarlierEntries(dirs, files, parent, entries, rel, prefix, dirsOnly)
         == TextOf(WalkEntries(NameRules(dirs, files), parent, entries, prefix, rel, Options(dirsOnly, false)))
  {
    var c := entries[0];
    var last := |entries| == 1;
    var sub := Walk(NameRules(dirs, files), c, prefix + Extension(last), ChildPath(rel, c.name), Options(dirsOnly, false));
    var rest := WalkEntries(NameRules(dirs, files), parent, entries[1..], prefix, rel, Options(dirsOnly, false));
    if sub.Success? && rest.Success? {
      var line := prefix + Glyph(last) + c.name;
      TreeTextAppend([line] + sub.value.lines, rest.value.lines);
      TreeTextAppend([line], sub.value.lines);
    }
  }

  /** The first entry is a file and files are listed: both sides put its
      line before the rest of the level. */
  lemma EarlierFileEntry(dirs: set<string>, files: set<string>, parent: Node, entries: seq<Node>,
                         rel: string, prefix: string, dirsOnly: bool)
    requires parent.Dir? && |entries| > 0 && entries[0].File? && !dirsOnly
    requires forall e :: e in entries ==> e in parent.children
    requires EarlierEntries(dirs, files, parent, entries[1..], rel, prefix, dirsOnly)
          == TextOf(WalkEntries(NameRules(dirs, files), parent, entries[1..], prefix, rel, Options(dirsOnly, false)))
    ensures EarlierEntries(dirs, files, parent, entries, rel, prefix, dirsOnly)
         == TextOf(WalkEntries(NameRules(dirs, files), parent, entries, prefix, rel, Options(dirsOnly, false)))
  {
    var rest := WalkEntries(NameRules(dirs, files), parent, entries[1..], prefix, rel, Options(dirsOnly, false));
    if rest.Success? {
      TreeTextAppend([prefix + Glyph(|entries| == 1) + entries[0].name], rest.value.lines);
    }
  }
}

=== FILE: exclusion.dfy ===
/** Which directory entries a walker leaves out.

    The current walker (`PathRules`) tests an entry's path relative to the scan
    root against the directory patterns in three ways, and a file's own name
    against the file patterns.  The earlier walker (`NameRules`) tests every
    entry's bare name for exact membership in the directory set and for a glob
    match against the file patterns, whether the entry is a file or not. */
module Exclusion {
  import opened Wrappers
  import opened Glob
  import opened Paths

  /** `file_should_be_excluded`: some pattern glob-matches the name. */
  predicate FileExcluded(name: string, patterns: set<string>) {
    exists p :: p in patterns && Matches(name, p)
  }

  /** Some pattern glob-matches one of the path components. */
  predicate ComponentMatches(parts: seq<string>, p: string) {
    exists k :: 0 <= k < |parts| && Matches(parts[k], p)
  }

  /** `path_should_be_excluded`: the relative path is itself one of the
      patterns, or a pattern containing `/` glob-matches the whole path, or any
      pattern glob-matches one of its `/`-separated components. */
  predicate PathExcluded(rel: string, patterns: set<string>) {
    || rel in patterns
    || (exists p :: p in patterns && !SlashFree(p) && Matches(rel, p))
    || (exists p :: p in patterns && ComponentMatches(Split(rel), p))
  }

  datatype Rules =
    | PathRules(excludeDirs: set<string>, excludeFiles: set<string>)
    | NameRules(excludeDirs: set<string>, excludeFiles: set<string>)

  /** Whether the walker keeps the entry called `name` (a file when `isFile`)
      of the directory whose relative path is `rel`. */
  predicate Keeps(rules: Rules, rel: string, name: string, isFile: bool) {
    match rules
    case PathRules(dirs, files) =>
      !PathExcluded(ChildPath(rel, name), dirs) && !(isFile && FileExcluded(name, files))
    case NameRules(dirs, files) =>
      name !in dirs && !FileExcluded(name, files)
  }

  // ---------------------------------------------------------------------------
  // Properties of the file test
  // ---------------------------------------------------------------------------

  /** No pattern, no exclusion. */
  lemma NothingExcludedByNoPatterns(name: string)
    ensures !FileExcluded(name, {})
    ensures !PathExcluded(name, {})
  {
  }

  /** A plain pattern excludes exactly the name it spells: `LICENSE` hides
      `LICENSE` but not `README_LICENSE`. */
  lemma {:induction false} PlainFilePattern(name: string, pat: string)
    requires NoMeta(pat)
    ensures FileExcluded(name, {pat}) <==> name == pat
  {
    PlainPatternMatchesOnlyItself(name, pat);
  }

  lemma {:induction false} LicenseExample()
    ensures FileExcluded("LICENSE", {"LICENSE"})
    ensures !FileExcluded("README_LICENSE", {"LICENSE"})
  {
    PlainFilePattern("LICENSE", "LICENSE");
    PlainFilePattern("README_LICENSE", "LICENSE");
  }

  /** More patterns never bring an entry back. */
  lemma ExclusionMonotone(name: string, rel: string, small: set<string>, large: set<string>)
    requires small <= large
    ensures FileExcluded(name, small) ==> FileExcluded(name, large)
    ensures PathExcluded(rel, small) ==> PathExcluded(rel, large)
  {
  }

  // ---------------------------------------------------------------------------
  // Properties of the path test
  // ---------------------------------------------------------------------------

  /** The three tiers restated over the components of a joined path: the
      component tier looks at each name on the path, the root-most first. */
  lemma {:induction false} PathExcludedByComponents(parts: seq<string>, patterns: set<string>)
    requires |parts| >= 1
    requires forall k :: 0 <= k < |parts| ==> SlashFree(parts[k])
    ensures PathExcluded(Join(parts), patterns)
        <==> || Join(parts) in patterns
             || (exists p :: p in patterns && !SlashFree(p) && Matches(Join(parts), p))
             || (exists p, k :: p in patterns && 0 <= k < |parts| && Matches(parts[k], p))
  {
    SplitJoin(parts);
  }

  /** A pattern that matches any one name on a path excludes the path, at
      whatever depth that name sits. */
  lemma AnyDepth(parts: seq<string>, k: nat, p: string, patterns: set<string>)
    requires forall i :: 0 <= i < |parts| ==> SlashFree(parts[i])
    requires k < |parts| && p in patterns && Matches(parts[k], p)
    ensures PathExcluded(Join(parts), patterns)
  {
    PathExcludedByComponents(parts, patterns);
  }

  /** A plain pattern containing `/` never matches a single component, so it
      excludes only the path it spells: `src/build` hides `src/build` and
      leaves `lib/build` alone. */
  lemma {:induction false} PlainSlashPattern(parts: seq<string>, pat: string)
    requires |parts| >= 1
    requires forall i :: 0 <= i < |parts| ==> SlashFree(parts[i])
    requires NoMeta(pat) && !SlashFree(pat)
    ensures PathExcluded(Join(parts), {pat}) <==> Join(parts) == pat
  {
    PathExcludedByComponents(parts, {pat});
    PlainPatternMatchesOnlyItself(Join(parts), pat);
    forall k | 0 <= k < |parts| ensures !Matches(parts[k], pat) {
      PlainPatternMatchesOnlyItself(parts[k], pat);
    }
  }

  lemma {:induction false} NestedPathExample()
    ensures PathExcluded("src/build", {"src/build"})
    ensures !PathExcluded("lib/build", {"src/build"})
  {
    assert Join(["lib", "build"]) == "lib/build";
    assert SlashFree("lib") && SlashFree("build");
    assert !SlashFree("src/build") by { assert "src/build"[3] == '/'; }
    PlainSlashPattern(["lib", "build"], "src/build");
  }

  /** `node_modules` hides itself wherever it sits. The literals are bound
      through the precondition so that the verifier does not unfold the
      splitter on them. */
  lemma NodeModulesExample(pat: string, dir: string)
    requires pat == "node_modules" && dir == "pkg/node_modules"
    ensures PathExcluded(dir, {pat})
  {
    assert NoMeta(pat) && SlashFree(pat);
    assert SlashFree("pkg");
    PlainPatternMatchesOnlyItself(pat, pat);
    assert dir == "pkg" + "/" + pat;
    ComponentExcluded("pkg", pat);
  }

  /** Every path beneath a directory whose name a plain pattern names is
      excluded by that pattern, whatever the directories above it (none
      included) and however deep below it the path goes. */
  lemma BeneathComponent(above: seq<string>, pat: string, rest: seq<string>)
    requires forall i :: 0 <= i < |above| ==> SlashFree(above[i])
    requires SlashFree(pat) && NoMeta(pat)
    requires forall i :: 0 <= i < |rest| ==> SlashFree(rest[i])
    ensures PathExcluded(Join(above + [pat] + rest), {pat})
  {
    PlainPatternMatchesOnlyItself(pat, pat);
    var parts := above + [pat] + rest;
    forall i | 0 <= i < |parts| ensures SlashFree(parts[i]) {
      if i < |above| {
        assert parts[i] == above[i];
      } else if i > |above| {
        assert parts[i] == rest[i - |above| - 1];
      }
    }
    assert parts[|above|] == pat;
    AnyDepth(parts, |above|, pat, {pat});
  }

  /** A last component that matches excludes the path. */
  lemma ComponentExcluded(parent: string, pat: string)
    requires SlashFree(parent) && SlashFree(pat) && Matches(pat, pat)
    ensures PathExcluded(parent + "/" + pat, {pat})
  {
    JoinPair(parent, pat);
    AnyDepth([parent, pat], 1, pat, {pat});
  }

  lemma JoinPair(x: string, y: string)
    ensures Join([x, y]) == x + "/" + y
  {
    assert [x, y][1..] == [y];
  }

  /** The exact-path tier is not redundant: a name with bracket characters is
      no glob match for itself, yet listing it verbatim excludes it. */
  lemma {:induction false} ExactTierExample()
    ensures !Matches("a[b]", "a[b]")
    ensures PathExcluded("a[b]", {"a[b]"})
  {
    assert ClassEnd("a[b]", 2) == Some(3) by {
      assert FindClose("a[b]", 2) == FindClose("a[b]", 3) == Some(3);
    }
    assert Compile("a[b]") == [Literal('a'), Class(false, [Single('b')])] by {
      assert "a[b]"[2..3] == "b";
      assert ClassItems("b") == [Single('b')] by { assert "b"[1..] == []; }
      assert CompileFrom("a[b]", 4) == [];
      assert CompileFrom("a[b]", 1) == [Class(false, [Single('b')])];
    }
    var toks := [Literal('a'), Class(false, [Single('b')])];
    assert toks[1..] == [Class(false, [Single('b')])];
    assert "a[b]"[1..] == "[b]";
    assert !InClass([Single('b')], '[');
  }

  // ---------------------------------------------------------------------------
  // The two walkers' rules side by side
  // ---------------------------------------------------------------------------

  /** The current walker globs directory patterns; the earlier one compares
      names exactly, so `node_*` hides `node_modules` only in the former. */
  lemma {:induction false} GlobVersusExactName(name: string, pat: string)
    requires name == "node_modules" && pat == "node_*"
    ensures !Keeps(PathRules({pat}, {}), "", name, false)
    ensures Keeps(NameRules({pat}, {}), "", name, false)
  {
    SuffixPrefixExample(name, pat);
    assert SlashFree(name);
    SplitSlashFree(name);
    assert Split(name)[0] == name;
    assert ComponentMatches(Split(name), pat);
  }

  lemma {:induction false} SuffixPrefixExample(name: string, pat: string)
    requires name == "node_modules" && pat == "node_*"
    ensures Matches(name, pat)
  {
    assert "node_" + "*" == pat;
    assert NoMeta("node_");
    PrefixPattern(name, "node_");
    assert name[..5] == "node_";
  }

  /** The earlier walker applies file patterns to directories too: a directory
      called `LICENSE` is hidden by it and shown by the current walker. */
  lemma {:induction false} FilePatternOnDirectories()
    ensures !Keeps(NameRules({}, {"LICENSE"}), "", "LICENSE", false)
    ensures Keeps(PathRules({}, {"LICENSE"}), "", "LICENSE", false)
  {
    LicenseExample();
  }
}

=== FILE: file_text.dfy ===
/** What the walker shows for a file's contents (`read_file_contents`): the
    decoded text with surrounding whitespace removed, or a placeholder.  The
    function is total, as `read_file_contents` catches every `Exception`. */
module FileText {
  import opened FsTree

  const BinaryPlaceholder: string := "[Binary file]"

  /** `str.isspace()` for one character. */
  predicate IsSpace(c: char) {
    || ('\t' <= c <= '\r')
    || ('\U{1c}' <= c <= '\U{1f}')
    || c == ' '
    || c == '\U{85}'
    || c == '\U{a0}'
    || c == '\U{1680}'
    || ('\U{2000}' <= c <= '\U{200a}')
    || c == '\U{2028}'
    || c == '\U{2029}'
    || c == '\U{202f}'
    || c == '\U{205f}'
    || c == '\U{3000}'
  }

  /** Number of whitespace characters at the front of `s`. */
  function LeadingSpace(s: string): (n: nat)
    ensures n <= |s|
    ensures forall k :: 0 <= k < n ==> IsSpace(s[k])
    ensures n < |s| ==> !IsSpace(s[n])
    decreases |s|
  {
    if |s| > 0 && IsSpace(s[0]) then 1 + LeadingSpace(s[1..]) else 0
  }

  /** Number of whitespace characters at the back of `s`. */
  function TrailingSpace(s: string): (n: nat)
    ensures n <= |s|
    ensures forall k :: |s| - n <= k < |s| ==> IsSpace(s[k])
    ensures n < |s| ==> !IsSpace(s[|s| - n - 1])
    decreases |s|
  {
    if |s| > 0 && IsSpace(s[|s| - 1]) then 1 + TrailingSpace(s[..|s| - 1]) else 0
  }

  predicate AllSpace(s: string) {
    forall k :: 0 <= k < |s| ==> IsSpace(s[k])
  }

  /** `r` is `s` with some whitespace cut from each end. */
  predicate TrimOf(r: string, s: string) {
    exists i, j :: 0 <= i <= j <= |s| && r == s[i..j] && AllSpace(s[..i]) && AllSpace(s[j..])
  }

  /** `str.strip()`. */
  function Strip(s: string): (r: string)
    ensures TrimOf(r, s)
    ensures |r| > 0 ==> !IsSpace(r[0]) && !IsSpace(r[|r| - 1])
  {
    var i := LeadingSpace(s);
    var n := TrailingSpace(s[i..]);
    StripCut(s, i, n);
    s[i..|s| - n]
  }

  /** Cutting `i` leading and `n` trailing whitespace characters, each run as
      long as it goes, leaves a trimmed text. */
  lemma StripCut(s: string, i: nat, n: nat)
    requires i <= |s| && n <= |s| - i
    requires forall k :: 0 <= k < i ==> IsSpace(s[k])
    requires i < |s| ==> !IsSpace(s[i])
    requires forall k :: |s[i..]| - n <= k < |s[i..]| ==> IsSpace(s[i..][k])
    requires n < |s[i..]| ==> !IsSpace(s[i..][|s[i..]| - n - 1])
    ensures TrimOf(s[i..|s| - n], s)
    ensures var r := s[i..|s| - n]; |r| > 0 ==> !IsSpace(r[0]) && !IsSpace(r[|r| - 1])
  {
    var rest := s[i..];
    var tail := s[|s| - n..];
    assert AllSpace(s[..i]) by {
      forall k | 0 <= k < i ensures IsSpace(s[..i][k]) {
        assert s[..i][k] == s[k];
      }
    }
    assert AllSpace(tail) by {
      forall k | 0 <= k < |tail| ensures IsSpace(tail[k]) {
        assert tail[k] == rest[|rest| - n + k];
      }
    }
    var r := s[i..|s| - n];
    if |r| > 0 {
      assert r[0] == s[i];
      assert r[|r| - 1] == rest[|rest| - n - 1];
    }
  }

  /** `read_file_contents`.  A decoded file's meaning comes from `Strip`'s
      contract: the text with surrounding whitespace trimmed, and no
      whitespace left at either end. */
  function ReadFileContents(read: ReadResult): (r: string)
    ensures read.Decoded? ==> r == Strip(read.text)
    ensures read.Undecodable? ==> r == BinaryPlaceholder
    ensures read.Unreadable? ==> r == "[Error reading file: " + read.reason + "]"
  {
    match read
    case Decoded(text) => Strip(text)
    case Undecodable => BinaryPlaceholder
    case Unreadable(reason) => "[Error reading file: " + reason + "]"
  }

  /** Stripping twice is stripping once. */
  lemma StripIdempotent(s: string)
    ensures Strip(Strip(s)) == Strip(s)
  {
    var r := Strip(s);
    assert LeadingSpace(r) == 0;
    assert TrailingSpace(r) == 0;
    assert r[0..|r|] == r;
  }

  /** Text that neither starts nor ends with whitespace is shown verbatim. */
  lemma StripKeepsTrimmedText(s: string)
    requires |s| > 0 ==> !IsSpace(s[0]) && !IsSpace(s[|s| - 1])
    ensures Strip(s) == s
  {
    assert LeadingSpace(s) == 0;
    assert TrailingSpace(s) == 0;
    assert s[0..|s|] == s;
  }
}

=== FILE: fs_tree.dfy ===
/** The directory tree the walkers read, as an immutable value.  The order of a
    directory's `children` is the order `os.listdir` returns them in. */
module FsTree {
  import opened Paths

  /** What opening a file as UTF-8 text and reading it produces. */
  datatype ReadResult =
    | Decoded(text: string)      // the decoded text
    | Undecodable                // `UnicodeDecodeError`
    | Unreadable(reason: string) // any other exception, with its message

  /** `listable` is false for a directory whose listing raises
      `PermissionError`; its `children` are then never looked at. */
  datatype Node =
    | File(name: string, read: ReadResult)
    | Dir(name: string, listable: bool, children: seq<Node>)

  /** The names the model represents: not empty, no separator, and made of
      Unicode scalar values.  POSIX names that are not valid UTF-8 are not
      covered. */
  predicate ValidName(n: string) {
    n != "" && SlashFree(n)
  }

  predicate DistinctNames(s: seq<Node>) {
    forall i, j :: 0 <= i < j < |s| ==> s[i].name != s[j].name
  }

  /** Entry names are valid and unique within each directory. */
  predicate WellFormed(n: Node)
    decreases n
  {
    && ValidName(n.name)
    && (n.Dir? ==> DistinctNames(n.children) && forall k :: 0 <= k < |n.children| ==> WellFormed(n.children[k]))
  }

  lemma ChildBelow(c: Node, p: Node)
    requires p.Dir? && c in p.children
    ensures c < p
  {
    var k :| 0 <= k < |p.children| && p.children[k] == c;
  }

  // ---------------------------------------------------------------------------
  // Python's ordering of `str`: lexicographic by code point, a proper prefix first
  // ---------------------------------------------------------------------------

  predicate NameLe(a: string, b: string)
    decreases |a|
  {
    |a| == 0 || (|b| > 0 && (a[0] < b[0] || (a[0] == b[0] && NameLe(a[1..], b[1..]))))
  }

  predicate NameLt(a: string, b: string) {
    NameLe(a, b) && a != b
  }

  lemma {:induction false} NameLeTotal(a: string, b: string)
    ensures NameLe(a, b) || NameLe(b, a)
    decreases |a|
  {
    if |a| > 0 && |b| > 0 && a[0] == b[0] {
      NameLeTotal(a[1..], b[1..]);
    }
  }

  lemma {:induction false} NameLeTransitive(a: string, b: string, c: string)
    requires NameLe(a, b) && NameLe(b, c)
    ensures NameLe(a, c)
    decreases |a|
  {
    if |a| > 0 && a[0] == b[0] && b[0] == c[0] {
      NameLeTransitive(a[1..], b[1..], c[1..]);
    }
  }

  lemma {:induction false} NameLeAntisymmetric(a: string, b: string)
    requires NameLe(a, b) && NameLe(b, a)
    ensures a == b
    decreases |a|
  {
    if |a| > 0 {
      NameLeAntisymmetric(a[1..], b[1..]);
      assert a == [a[0]] + a[1..] && b == [b[0]] + b[1..];
    }
  }

  // ---------------------------------------------------------------------------
  // `sorted(...)` of a directory's entries by name
  // ---------------------------------------------------------------------------

  predicate Ascending(s: seq<Node>) {
    forall i, j :: 0 <= i < j < |s| ==> NameLe(s[i].name, s[j].name)
  }

  predicate StrictlyAscending(s: seq<Node>) {
    forall i, j :: 0 <= i < j < |s| ==> NameLt(s[i].name, s[j].name)
  }

  function NameSet(s: seq<Node>): set<string> {
    set k | 0 <= k < |s| :: s[k].name
  }

  lemma NameSetCons(x: Node, s: seq<Node>)
    ensures NameSet([x] + s) == {x.name} + NameSet(s)
  {
    var t := [x] + s;
    forall n | n in NameSet(t) ensures n in {x.name} + NameSet(s) {
      var k :| 0 <= k < |t| && t[k].name == n;
      if k > 0 { assert t[k] == s[k - 1]; }
    }
    forall n | n in NameSet(s) ensures n in NameSet(t) {
      var k :| 0 <= k < |s| && s[k].name == n;
      assert t[k + 1] == s[k];
    }
    assert t[0] == x;
  }

  lemma DistinctCons(x: Node, s: seq<Node>)
    ensures DistinctNames([x] + s) <==> DistinctNames(s) && x.name !in NameSet(s)
  {
    var t := [x] + s;
    assert t[0] == x;
    if DistinctNames(t) {
      forall i, j | 0 <= i < j < |s| ensures s[i].name != s[j].name {
        assert t[i + 1] == s[i] && t[j + 1] == s[j];
      }
      forall k | 0 <= k < |s| ensures s[k].name != x.name {
        assert t[k + 1] == s[k];
      }
    }
    if DistinctNames(s) && x.name !in NameSet(s) {
      forall i, j | 0 <= i < j < |t| ensures t[i].name != t[j].name {
        if i == 0 {
          assert t[j] == s[j - 1];
        } else {
          assert t[i] == s[i - 1] && t[j] == s[j - 1];
        }
      }
    }
  }

  /** Puts `x` before the first entry whose name is not below it. */
  function Insert(x: Node, s: seq<Node>): (r: seq<Node>)
    ensures InsertFacts(x, s, r)
    decreases |s|
  {
    if |s| == 0 then
      NameSetCons(x, []);
      [x]
    else if NameLe(x.name, s[0].name) then
      InsertHere(x, s);
      [x] + s
    else
      var tail := Insert(x, s[1..]);
      NameLeTotal(x.name, s[0].name);
      InsertLater(x, s, tail);
      [s[0]] + tail
  }

  /** `r` is `s` with `x` added, and keeps the order and unique names of `s`. */
  predicate InsertFacts(x: Node, s: seq<Node>, r: seq<Node>) {
    && multiset(r) == multiset(s) + multiset{x}
    && NameSet(r) == NameSet(s) + {x.name}
    && (Ascending(s) ==> Ascending(r))
    && (DistinctNames(s) && x.name !in NameSet(s) ==> DistinctNames(r))
  }

  lemma InsertHere(x: Node, s: seq<Node>)
    requires |s| > 0 && NameLe(x.name, s[0].name)
    ensures InsertFacts(x, s, [x] + s)
  {
    NameSetCons(x, s);
    DistinctCons(x, s);
    InsertFront(x, s);
  }

  lemma InsertLater(x: Node, s: seq<Node>, tail: seq<Node>)
    requires |s| > 0 && NameLe(s[0].name, x.name)
    requires InsertFacts(x, s[1..], tail)
    ensures InsertFacts(x, s, [s[0]] + tail)
  {
    InsertLaterCounts(x, s, tail);
    InsertLaterDistinct(x, s, tail);
    InsertBehind(x, s, tail);
  }

  lemma InsertLaterCounts(x: Node, s: seq<Node>, tail: seq<Node>)
    requires |s| > 0
    requires multiset(tail) == multiset(s[1..]) + multiset{x}
    requires NameSet(tail) == NameSet(s[1..]) + {x.name}
    ensures multiset([s[0]] + tail) == multiset(s) + multiset{x}
    ensures NameSet([s[0]] + tail) == NameSet(s) + {x.name}
  {
    assert s == [s[0]] + s[1..];
    assert multiset([s[0]] + tail) == multiset{s[0]} + multiset(tail);
    NameSetCons(s[0], s[1..]);
    NameSetCons(s[0], tail);
  }

  lemma InsertLaterDistinct(x: Node, s: seq<Node>, tail: seq<Node>)
    requires |s| > 0
    requires NameSet(tail) == NameSet(s[1..]) + {x.name}
    requires DistinctNames(s[1..]) && x.name !in NameSet(s[1..]) ==> DistinctNames(tail)
    ensures DistinctNames(s) && x.name !in NameSet(s) ==> DistinctNames([s[0]] + tail)
  {
    if DistinctNames(s) && x.name !in NameSet(s) {
      assert s == [s[0]] + s[1..];
      NameSetCons(s[0], s[1..]);
      DistinctCons(s[0], s[1..]);
      DistinctCons(s[0], tail);
    }
  }

  lemma InsertFront(x: Node, s: seq<Node>)
    requires |s| > 0 && NameLe(x.name, s[0].name)
    ensures Ascending(s) ==> Ascending([x] + s)
  {
    var r := [x] + s;
    if Ascending(s) {
      forall i, j | 0 <= i < j < |r| ensures NameLe(r[i].name, r[j].name) {
        if i == 0 && j > 1 {
          NameLeTransitive(x.name, s[0].name, s[j - 1].name);
        }
      }
    }
  }

  lemma InsertBehind(x: Node, s: seq<Node>, tail: seq<Node>)
    requires |s| > 0 && NameLe(s[0].name, x.name)
    requires multiset(tail) == multiset(s[1..]) + multiset{x}
    requires Ascending(s[1..]) ==> Ascending(tail)
    ensures Ascending(s) ==> Ascending([s[0]] + tail)
  {
    var r := [s[0]] + tail;
    if Ascending(s) {
      assert Ascending(s[1..]);
      forall i, j | 0 <= i < j < |r| ensures NameLe(r[i].name, r[j].name) {
        if i == 0 {
          assert r[j] == tail[j - 1];
          assert r[j] in multiset(tail);
          if r[j] != x {
            assert r[j] in multiset(s[1..]);
            var k :| 0 <= k < |s[1..]| && s[1..][k] == r[j];
            assert s[k + 1] == r[j];
          }
        } else {
          assert r[i] == tail[i - 1] && r[j] == tail[j - 1];
        }
      }
    }
  }

  /** `sorted(entries)` by name (insertion sort; stable). */
  function SortByName(s: seq<Node>): (r: seq<Node>)
    ensures multiset(r) == multiset(s)
    ensures NameSet(r) == NameSet(s)
    ensures Ascending(r)
    ensures DistinctNames(s) ==> DistinctNames(r)
    decreases |s|
  {
    if |s| == 0 then []
    else
      var rest := SortByName(s[1..]);
      SortStep(s, rest);
      Insert(s[0], rest)
  }

  lemma SortStep(s: seq<Node>, rest: seq<Node>)
    requires |s| > 0
    requires multiset(rest) == multiset(s[1..]) && NameSet(rest) == NameSet(s[1..])
    requires DistinctNames(s[1..]) ==> DistinctNames(rest)
    ensures multiset(Insert(s[0], rest)) == multiset(s)
    ensures NameSet(Insert(s[0], rest)) == NameSet(s)
    ensures DistinctNames(s) ==> DistinctNames(Insert(s[0], rest))
  {
    assert s == [s[0]] + s[1..];
    assert multiset(s) == multiset(s[1..]) + multiset{s[0]};
    NameSetCons(s[0], s[1..]);
    DistinctCons(s[0], s[1..]);
  }

  /** With unique names the sorted order is strict: ascending code-point order. */
  lemma SortedStrictly(s: seq<Node>)
    requires DistinctNames(s)
    ensures StrictlyAscending(SortByName(s))
  {
  }
}

=== FILE: glob.dfy ===
/** Shell-style pattern matching with the semantics of Python's `fnmatch.fnmatch`
    on a POSIX system (where `normcase` is the identity).

    A pattern is first compiled into tokens, the way `fnmatch.translate` turns it
    into a regular expression, and the tokens must then match the WHOLE name:
    - `*` matches any run of characters, `/` included;
    - `?` matches exactly one character, `/` included;
    - `[...]` matches one character of the set, `[!...]` one character outside it;
      `a-z` inside the brackets is a range, and a range whose ends are reversed
      matches nothing, as in the `fnmatch` of recent Python releases (older
      ones reject such a pattern with `re.error`); a `]` right after `[` or
      `[!` is a member of the set;
    - a `[` without a closing `]` is an ordinary character;
    - every other character matches only itself. */
module Glob {
  import opened Wrappers

  datatype ClassItem = Single(c: char) | Range(lo: char, hi: char)

  datatype Token =
    | Literal(c: char)
    | AnyChar
    | AnyRun
    | Class(negated: bool, items: seq<ClassItem>)

  /** Characters that make a pattern more than a plain string. */
  predicate IsMeta(c: char) {
    c == '*' || c == '?' || c == '['
  }

  predicate NoMeta(pat: string) {
    forall k :: 0 <= k < |pat| ==> !IsMeta(pat[k])
  }

  /** Index of the first `]` at or after `j`. */
  function FindClose(pat: string, j: nat): (r: Option<nat>)
    requires j <= |pat|
    ensures r.Some? ==> j <= r.value < |pat| && pat[r.value] == ']'
    ensures r.Some? ==> forall k :: j <= k < r.value ==> pat[k] != ']'
    ensures r.None? ==> forall k :: j <= k < |pat| ==> pat[k] != ']'
    decreases |pat| - j
  {
    if j == |pat| then None
    else if pat[j] == ']' then Some(j)
    else FindClose(pat, j + 1)
  }

  /** Where the bracket expression opened just before `start` closes: a leading
      `!` and then a leading `]` belong to the set and cannot close it. */
  function ClassEnd(pat: string, start: nat): (r: Option<nat>)
    requires start <= |pat|
    ensures r.Some? ==> start < r.value < |pat| && pat[r.value] == ']'
  {
    var j0 := if start < |pat| && pat[start] == '!' then start + 1 else start;
    var j1 := if j0 < |pat| && pat[j0] == ']' then j0 + 1 else j0;
    FindClose(pat, j1)
  }

  /** The members of a bracket expression, read left to right: `x-y` is a range
      whenever a character follows the hyphen. */
  function ClassItems(body: string): (items: seq<ClassItem>)
    decreases |body|
  {
    if |body| == 0 then []
    else if |body| >= 3 && body[1] == '-' then [Range(body[0], body[2])] + ClassItems(body[3..])
    else [Single(body[0])] + ClassItems(body[1..])
  }

  function ClassToken(body: string): Token {
    if |body| > 0 && body[0] == '!' then Class(true, ClassItems(body[1..]))
    else Class(false, ClassItems(body))
  }

  function CompileFrom(pat: string, i: nat): seq<Token>
    requires i <= |pat|
    decreases |pat| - i
  {
    if i == |pat| then []
    else if pat[i] == '*' then [AnyRun] + CompileFrom(pat, i + 1)
    else if pat[i] == '?' then [AnyChar] + CompileFrom(pat, i + 1)
    else if pat[i] == '[' then
      match ClassEnd(pat, i + 1)
      case None => [Literal('[')] + CompileFrom(pat, i + 1)
      case Some(j) => [ClassToken(pat[i + 1..j])] + CompileFrom(pat, j + 1)
    else [Literal(pat[i])] + CompileFrom(pat, i + 1)
  }

  /** The token sequence of a pattern (`fnmatch.translate`). */
  function Compile(pat: string): seq<Token> {
    CompileFrom(pat, 0)
  }

  predicate InClass(items: seq<ClassItem>, c: char) {
    exists k :: 0 <= k < |items| && ItemHolds(items[k], c)
  }

  predicate ItemHolds(item: ClassItem, c: char) {
    match item
    case Single(x) => x == c
    case Range(lo, hi) => lo <= c <= hi
  }

  /** Whether a token that consumes exactly one character accepts `c`. */
  predicate OneChar(t: Token, c: char) {
    match t
    case Literal(x) => x == c
    case AnyChar => true
    case AnyRun => false
    case Class(negated, items) => InClass(items, c) != negated
  }

  /** Whether the tokens match all of `s`. */
  predicate MatchTokens(toks: seq<Token>, s: string)
    decreases |toks| + |s|
  {
    if |toks| == 0 then |s| == 0
    else if toks[0].AnyRun? then
      MatchTokens(toks[1..], s) || (|s| > 0 && MatchTokens(toks, s[1..]))
    else
      |s| > 0 && OneChar(toks[0], s[0]) && MatchTokens(toks[1..], s[1..])
  }

  /** `fnmatch.fnmatch(name, pat)`. */
  predicate Matches(name: string, pat: string) {
    MatchTokens(Compile(pat), name)
  }

  // ---------------------------------------------------------------------------
  // Properties
  // ---------------------------------------------------------------------------

  function Literals(p: string): (toks: seq<Token>)
    ensures |toks| == |p|
    ensures forall k :: 0 <= k < |p| ==> toks[k] == Literal(p[k])
  {
    if |p| == 0 then [] else [Literal(p[0])] + Literals(p[1..])
  }

  /** A pattern without metacharacters compiles to one literal per character. */
  lemma {:induction false} CompilePlain(pat: string, i: nat)
    requires i <= |pat|
    requires forall k :: i <= k < |pat| ==> !IsMeta(pat[k])
    ensures CompileFrom(pat, i) == Literals(pat[i..])
    decreases |pat| - i
  {
    if i < |pat| {
      CompilePlain(pat, i + 1);
      assert pat[i..][1..] == pat[i + 1..];
    }
  }

  lemma {:induction false} LiteralsMatchExactly(p: string, s: string)
    ensures MatchTokens(Literals(p), s) <==> s == p
    decreases |p|
  {
    if |p| > 0 && |s| > 0 {
      LiteralsMatchExactly(p[1..], s[1..]);
      assert Literals(p)[1..] == Literals(p[1..]);
      if |s| > 0 && s[0] == p[0] && s[1..] == p[1..] {
        assert s == [s[0]] + s[1..];
        assert p == [p[0]] + p[1..];
      }
    }
  }

  /** A pattern made only of ordinary characters matches exactly one name:
      itself.  So `LICENSE` does not match `README_LICENSE`. */
  lemma PlainPatternMatchesOnlyItself(name: string, pat: string)
    requires NoMeta(pat)
    ensures Matches(name, pat) <==> name == pat
  {
    assert pat[0..] == pat;
    CompilePlain(pat, 0);
    LiteralsMatchExactly(pat, name);
  }

  /** A leading `*` may swallow any prefix of the name, `/` included. */
  lemma {:induction false} AnyRunSplits(rest: seq<Token>, s: string)
    ensures MatchTokens([AnyRun] + rest, s)
        <==> exists k :: 0 <= k <= |s| && MatchTokens(rest, s[k..])
    decreases |s|
  {
    var toks := [AnyRun] + rest;
    assert toks[1..] == rest;
    if |s| == 0 {
      assert s[0..] == s;
    } else {
      AnyRunSplits(rest, s[1..]);
      if MatchTokens(toks, s) {
        if MatchTokens(rest, s) {
          assert s[0..] == s;
        } else {
          var k :| 0 <= k <= |s[1..]| && MatchTokens(rest, s[1..][k..]);
          assert s[1..][k..] == s[k + 1..];
        }
      }
      if exists k :: 0 <= k <= |s| && MatchTokens(rest, s[k..]) {
        var k :| 0 <= k <= |s| && MatchTokens(rest, s[k..]);
        if k == 0 {
          assert s[0..] == s;
        } else {
          assert s[1..][k - 1..] == s[k..];
        }
      }
    }
  }

  /** `*` matches every name, including one that contains `/`. */
  lemma {:induction false} StarMatchesEverything(name: string)
    ensures Matches(name, "*")
  {
    assert Compile("*") == [AnyRun] + [];
    AnyRunSplits([], name);
    assert MatchTokens([], name[|name|..]);
  }

  /** `*` followed by plain text matches exactly the names ending in that text:
      `*.log` matches `a/b.log` but not `b.log.txt`. */
  lemma SuffixPattern(name: string, lit: string)
    requires NoMeta(lit)
    ensures Matches(name, "*" + lit)
        <==> |lit| <= |name| && name[|name| - |lit|..] == lit
  {
    var pat := "*" + lit;
    assert forall k :: 1 <= k < |pat| ==> !IsMeta(pat[k]) by {
      forall k | 1 <= k < |pat| ensures !IsMeta(pat[k]) {
        assert pat[k] == lit[k - 1];
      }
    }
    CompilePlain(pat, 1);
    assert pat[1..] == lit;
    assert Compile(pat) == [AnyRun] + Literals(lit);
    AnyRunSplits(Literals(lit), name);
    SuffixSplit(name, lit);
  }

  lemma SuffixSplit(name: string, lit: string)
    ensures (exists k :: 0 <= k <= |name| && MatchTokens(Literals(lit), name[k..]))
        <==> |lit| <= |name| && name[|name| - |lit|..] == lit
  {
    if exists k :: 0 <= k <= |name| && MatchTokens(Literals(lit), name[k..]) {
      var k :| 0 <= k <= |name| && MatchTokens(Literals(lit), name[k..]);
      LiteralsMatchExactly(lit, name[k..]);
    }
    if |lit| <= |name| && name[|name| - |lit|..] == lit {
      LiteralsMatchExactly(lit, name[|name| - |lit|..]);
    }
  }

  /** Plain text followed by `*` matches exactly the names that start with
      that text: `node_*` matches `node_modules`. */
  lemma PrefixPattern(name: string, lit: string)
    requires NoMeta(lit)
    ensures Matches(name, lit + "*")
        <==> |lit| <= |name| && name[..|lit|] == lit
  {
    var pat := lit + "*";
    CompileThenStar(pat, 0, |lit|);
    assert pat[0..|lit|] == lit;
    LiteralsThenAnyRun(lit, name);
  }

  lemma {:induction false} CompileThenStar(pat: string, i: nat, n: nat)
    requires i <= n && n + 1 == |pat| && pat[n] == '*'
    requires forall k :: i <= k < n ==> !IsMeta(pat[k])
    ensures CompileFrom(pat, i) == Literals(pat[i..n]) + [AnyRun]
    decreases n - i
  {
    if i == n {
      assert CompileFrom(pat, n + 1) == [];
    } else {
      CompileThenStar(pat, i + 1, n);
      assert pat[i..n][1..] == pat[i + 1..n];
    }
  }

  lemma {:induction false} LiteralsThenAnyRun(lit: string, s: string)
    ensures MatchTokens(Literals(lit) + [AnyRun], s) <==> |lit| <= |s| && s[..|lit|] == lit
    decreases |lit|
  {
    var toks := Literals(lit) + [AnyRun];
    if |lit| == 0 {
      assert toks == [AnyRun] + [];
      AnyRunSplits([], s);
      assert MatchTokens([], s[|s|..]);
    } else {
      assert toks[1..] == Literals(lit[1..]) + [AnyRun];
      if |s| > 0 {
        LiteralsThenAnyRun(lit[1..], s[1..]);
        if |lit| <= |s| && s[..|lit|] == lit {
          assert s[1..][..|lit| - 1] == lit[1..];
        }
        if s[0] == lit[0] && |lit[1..]| <= |s[1..]| && s[1..][..|lit[1..]|] == lit[1..] {
          assert s[..|lit|] == [s[0]] + s[1..][..|lit[1..]|];
          assert lit == [lit[0]] + lit[1..];
        }
      }
    }
  }

  /** `?` matches exactly the one-character names. */
  lemma {:induction false} QuestionMatchesOneChar(name: string)
    ensures Matches(name, "?") <==> |name| == 1
  {
    var toks := [AnyChar];
    assert Compile("?") == toks by {
      assert CompileFrom("?", 1) == [];
    }
    assert toks[1..] == [];
    if |name| > 0 {
      assert MatchTokens(toks, name) <==> MatchTokens([], name[1..]);
    }
  }

  /** `[a-c]` matches one character from `a` to `c`, and `[!a-c]` one outside. */
  lemma {:induction false} RangeExamples()
    ensures Matches("b", "[a-c]") && !Matches("d", "[a-c]")
    ensures Matches("d", "[!a-c]") && !Matches("b", "[!a-c]")
  {
    var items := [Range('a', 'c')];
    CompileRange('a', 'c');
    CompileNegatedRange();
    assert InClass(items, 'b') by { assert ItemHolds(items[0], 'b'); }
    assert !InClass(items, 'd');
    MatchOneToken(Class(false, items), "b");
    MatchOneToken(Class(false, items), "d");
    MatchOneToken(Class(true, items), "b");
    MatchOneToken(Class(true, items), "d");
  }

  /** `[lo-hi]` compiles to the one range `lo`..`hi`, whatever the order of
      its ends. */
  lemma CompileRange(lo: char, hi: char)
    requires lo != '!' && lo != ']' && hi != ']'
    ensures Compile(['[', lo, '-', hi, ']']) == [Class(false, [Range(lo, hi)])]
  {
    var pat := ['[', lo, '-', hi, ']'];
    var body := [lo, '-', hi];
    assert ClassItems(body) == [Range(lo, hi)] by {
      assert body[3..] == [];
    }
    assert ClassEnd(pat, 1) == Some(4) by {
      assert FindClose(pat, 1) == FindClose(pat, 2) == FindClose(pat, 3) == Some(4);
    }
    assert pat[1..4] == body;
    assert CompileFrom(pat, 5) == [];
  }

  lemma CompileNegatedRange()
    ensures Compile("[!a-c]") == [Class(true, [Range('a', 'c')])]
  {
    assert ClassItems("a-c") == [Range('a', 'c')] by {
      assert "a-c"[3..] == [];
    }
    assert ClassEnd("[!a-c]", 1) == Some(5) by {
      assert FindClose("[!a-c]", 2) == FindClose("[!a-c]", 3) == FindClose("[!a-c]", 4) == Some(5);
    }
    assert "[!a-c]"[1..5] == "!a-c";
    assert "!a-c"[1..] == "a-c";
    assert CompileFrom("[!a-c]", 6) == [];
  }

  lemma {:induction false} MatchOneToken(t: Token, s: string)
    requires !t.AnyRun?
    ensures MatchTokens([t], s) <==> |s| == 1 && OneChar(t, s[0])
  {
    assert [t][1..] == [];
  }

  /** A reversed range matches nothing, a `]` first in the set is a member,
      and a `[` that is never closed is an ordinary character. */
  lemma {:induction false} BracketEdgeCases()
    ensures !Matches("a", "[c-a]") && !Matches("b", "[c-a]")
    ensures Matches("]", "[]]")
    ensures Matches("[x", "[x")
  {
    var rev := [Range('c', 'a')];
    CompileRange('c', 'a');
    assert !InClass(rev, 'a') && !InClass(rev, 'b');
    MatchOneToken(Class(false, rev), "a");
    MatchOneToken(Class(false, rev), "b");

    var br := [Single(']')];
    CompileBracket();
    assert InClass(br, ']') by { assert ItemHolds(br[0], ']'); }
    MatchOneToken(Class(false, br), "]");

    CompileUnclosed();
    var toks := [Literal('['), Literal('x')];
    assert toks[1..] == [Literal('x')];
    MatchOneToken(Literal('x'), "x");
    assert "[x"[1..] == "x";
  }

  lemma CompileBracket()
    ensures Compile("[]]") == [Class(false, [Single(']')])]
  {
    assert ClassEnd("[]]", 1) == Some(2) by {
      assert FindClose("[]]", 2) == Some(2);
    }
    assert "[]]"[1..2] == "]";
    assert ClassItems("]") == [Single(']')] by { assert "]"[1..] == []; }
    assert CompileFrom("[]]", 3) == [];
  }

  lemma CompileUnclosed()
    ensures Compile("[x") == [Literal('['), Literal('x')]
  {
    assert ClassEnd("[x", 1) == None by {
      assert FindClose("[x", 1) == FindClose("[x", 2) == None;
    }
    assert CompileFrom("[x", 1) == [Literal('x')] + CompileFrom("[x", 2);
    assert CompileFrom("[x", 2) == [];
  }
}

=== FILE: indent_printer.dfy ===
/** The first, stand-alone printer: one line per entry, four spaces per level,
    directories in brackets, entries in listing order. */
module IndentPrinter {
  import opened Wrappers
  import opened FsTree
  import opened Exclusion
  import opened TreeWalk

  /** The names it never lists, files and directories alike. */
  const ExcludeDirs: set<string> := {"venv", "node_modules", "dist", ".git", ".idea", "__pycache__"}

  const Header: string := "Project Directory Structure:"

  /** Four spaces per level. */
  function Pad(indent: nat): (r: string)
    ensures |r| == 4 * indent
    ensures forall k :: 0 <= k < |r| ==> r[k] == ' '
    decreases indent
  {
    if indent == 0 then "" else "    " + Pad(indent - 1)
  }

  /** A directory's name in brackets, a file's name as it is. */
  function Label(n: Node): string {
    if n.Dir? then "[" + n.name + "]" else n.name
  }

  /** The entries of `d` it prints, in listing order. */
  function Listed(d: Node): (r: seq<Node>)
    requires d.Dir?
    ensures forall e :: e in r <==> e in d.children && e.name !in ExcludeDirs
    ensures SubsequenceOf(r, d.children)
  {
    KeptEntries(NameRules(ExcludeDirs, {}), "", d.children)
  }

  /** `print_dir_structure(dir_path, indent)`: the lines it prints.  A
      directory it may not list prints nothing. */
  function PrintStructure(d: Node, indent: nat): (r: seq<string>)
    ensures forall k :: 0 <= k < |r| ==> |r[k]| >= 4 * indent && r[k][..4 * indent] == Pad(indent)
    decreases d, 1
  {
    if !d.Dir? || !d.listable then [] else PrintItems(d, Listed(d), indent)
  }

  function PrintItems(parent: Node, items: seq<Node>, indent: nat): (r: seq<string>)
    requires parent.Dir?
    requires forall e :: e in items ==> e in parent.children
    ensures forall k :: 0 <= k < |r| ==> |r[k]| >= 4 * indent && r[k][..4 * indent] == Pad(indent)
    decreases parent, 0, |items|
  {
    if |items| == 0 then []
    else
      var c := items[0];
      ChildBelow(c, parent);
      var below := if c.Dir? then PrintStructure(c, indent + 1) else [];
      PadGrows(indent);
      [Pad(indent) + Label(c)] + below + PrintItems(parent, items[1..], indent)
  }

  lemma PadGrows(indent: nat)
    ensures Pad(indent + 1)[..4 * indent] == Pad(indent)
  {
    assert Pad(indent + 1) == "    " + Pad(indent);
    var p := Pad(indent + 1)[..4 * indent];
    assert forall k :: 0 <= k < |p| ==> p[k] == Pad(indent + 1)[k];
  }

  /** What the script prints: the header, then the tree of the start path,
      and whether it got to the end (a start path that is missing or is not a
      directory raises). */
  datatype Printed = Printed(lines: seq<string>, completed: bool)

  function PrintDirectory(start: Option<Node>): (r: Printed)
    ensures |r.lines| > 0 && r.lines[0] == Header
    ensures r.completed <==> start.Some? && start.value.Dir?
    ensures !r.completed ==> r.lines == [Header]
  {
    match start
    case Some(d) =>
      if d.Dir? then Printed([Header] + PrintStructure(d, 0), true) else Printed([Header], false)
    case None => Printed([Header], false)
  }

  // ---------------------------------------------------------------------------
  // Reference: the printed entries with the names of their enclosing directories
  // ---------------------------------------------------------------------------

  /** A printed entry and the names of the directories between the start path
      and it. */
  datatype Entry = Entry(node: Node, above: seq<string>)

  function Entries(d: Node, path: seq<string>): seq<Entry>
    decreases d, 1
  {
    if !d.Dir? || !d.listable then [] else EntriesOf(d, Listed(d), path)
  }

  function EntriesOf(parent: Node, items: seq<Node>, path: seq<string>): seq<Entry>
    requires parent.Dir?
    requires forall e :: e in items ==> e in parent.children
    decreases parent, 0, |items|
  {
    if |items| == 0 then []
    else
      var c := items[0];
      ChildBelow(c, parent);
      var below := if c.Dir? then Entries(c, path + [c.name]) else [];
      [Entry(c, path)] + below + EntriesOf(parent, items[1..], path)
  }

  function EntryLine(e: Entry): string {
    Pad(|e.above|) + Label(e.node)
  }

  function EntryLines(es: seq<Entry>): (r: seq<string>)
    ensures |r| == |es|
    ensures forall k :: 0 <= k < |es| ==> r[k] == EntryLine(es[k])
    decreases |es|
  {
    if |es| == 0 then [] else [EntryLine(es[0])] + EntryLines(es[1..])
  }

  lemma {:induction false} EntryLinesAppend(a: seq<Entry>, b: seq<Entry>)
    ensures EntryLines(a + b) == EntryLines(a) + EntryLines(b)
  {
  }

  /** The printer prints one line per entry: the entry's name, bracketed for a
      directory, behind four spaces per enclosing directory. */
  lemma {:induction false} PrintsEntries(d: Node, path: seq<string>)
    ensures PrintStructure(d, |path|) == EntryLines(Entries(d, path))
    decreases d, 1
  {
    if d.Dir? && d.listable {
      PrintsEntriesOf(d, Listed(d), path);
    }
  }

  lemma {:induction false} PrintsEntriesOf(parent: Node, items: seq<Node>, path: seq<string>)
    requires parent.Dir?
    requires forall e :: e in items ==> e in parent.children
    ensures PrintItems(parent, items, |path|) == EntryLines(EntriesOf(parent, items, path))
    decreases parent, 0, |items|
  {
    if |items| > 0 {
      var c := items[0];
      assert c in items;
      ChildBelow(c, parent);
      PrintsEntriesOf(parent, items[1..], path);
      var below := if c.Dir? then Entries(c, path + [c.name]) else [];
      if c.Dir? {
        PrintsEntries(c, path + [c.name]);
      }
      EntryLinesAppend([Entry(c, path)] + below, EntriesOf(parent, items[1..], path));
      EntryLinesAppend([Entry(c, path)], below);
    }
  }

  /** Every printed entry lies beneath `path`, and neither it nor any directory
      it lies in has an excluded name. */
  predicate Beneath(e: Entry, path: seq<string>) {
    && |e.above| >= |path| && e.above[..|path|] == path
    && e.node.name !in ExcludeDirs
    && forall j :: |path| <= j < |e.above| ==> e.above[j] !in ExcludeDirs
  }

  lemma {:induction false} EntriesBeneath(d: Node, path: seq<string>)
    ensures forall k :: 0 <= k < |Entries(d, path)| ==> Beneath(Entries(d, path)[k], path)
    decreases d, 1
  {
    if d.Dir? && d.listable {
      EntriesOfBeneath(d, Listed(d), path);
    }
  }

  lemma {:induction false} EntriesOfBeneath(parent: Node, items: seq<Node>, path: seq<string>)
    requires parent.Dir?
    requires forall e :: e in items ==> e in parent.children && e.name !in ExcludeDirs
    ensures forall k :: 0 <= k < |EntriesOf(parent, items, path)| ==> Beneath(EntriesOf(parent, items, path)[k], path)
    decreases parent, 0, |items|
  {
    if |items| > 0 {
      var c := items[0];
      assert c in items;
      ChildBelow(c, parent);
      EntriesOfBeneath(parent, items[1..], path);
      var below := if c.Dir? then Entries(c, path + [c.name]) else [];
      if c.Dir? {
        EntriesBeneath(c, path + [c.name]);
      }
      BeneathDeeper(below, path, c.name);
      var all := [Entry(c, path)] + below + EntriesOf(parent, items[1..], path);
      assert EntriesOf(parent, items, path) == all;
      BeneathConcat(Entry(c, path), below, EntriesOf(parent, items[1..], path), path);
    }
  }

  lemma BeneathDeeper(below: seq<Entry>, path: seq<string>, name: string)
    requires name !in ExcludeDirs
    requires forall k :: 0 <= k < |below| ==> Beneath(below[k], path + [name])
    ensures forall k :: 0 <= k < |below| ==> Beneath(below[k], path)
  {
    forall k | 0 <= k < |below| ensures Beneath(below[k], path) {
      var e := below[k];
      assert e.above[..|path| + 1] == path + [name];
      assert e.above[..|path|] == e.above[..|path| + 1][..|path|];
    }
  }

  lemma BeneathConcat(x: Entry, below: seq<Entry>, rest: seq<Entry>, path: seq<string>)
    requires Beneath(x, path)
    requires forall k :: 0 <= k < |below| ==> Beneath(below[k], path)
    requires forall k :: 0 <= k < |rest| ==> Beneath(rest[k], path)
    ensures forall k :: 0 <= k < |[x] + below + rest| ==> Beneath(([x] + below + rest)[k], path)
  {
    var all := [x] + below + rest;
    forall k | 0 <= k < |all| ensures Beneath(all[k], path) {
      if k == 0 {
      } else if k <= |below| {
        assert all[k] == below[k - 1];
      } else {
        assert all[k] == rest[k - 1 - |below|];
      }
    }
  }

  /** The entries at exactly a given depth. */
  function AtLevel(es: seq<Entry>, n: nat): seq<Entry>
    decreases |es|
  {
    if |es| == 0 then []
    else if |es[0].above| == n then [es[0]] + AtLevel(es[1..], n)
    else AtLevel(es[1..], n)
  }

  lemma {:induction false} AtLevelAppend(a: seq<Entry>, b: seq<Entry>, n: nat)
    ensures AtLevel(a + b, n) == AtLevel(a, n) + AtLevel(b, n)
    decreases |a|
  {
    if |a| > 0 {
      assert (a + b)[1..] == a[1..] + b;
      AtLevelAppend(a[1..], b, n);
    } else {
      assert a + b == b;
    }
  }

  lemma {:induction false} AtLevelNone(es: seq<Entry>, n: nat)
    requires forall k :: 0 <= k < |es| ==> |es[k].above| > n
    ensures AtLevel(es, n) == []
    decreases |es|
  {
    if |es| > 0 {
      AtLevelNone(es[1..], n);
    }
  }

  lemma {:induction false} LevelOfItems(parent: Node, items: seq<Node>, path: seq<string>)
    requires parent.Dir?
    requires forall e :: e in items ==> e in parent.children
    ensures var lvl := AtLevel(EntriesOf(parent, items, path), |path|);
            |lvl| == |items| && forall i :: 0 <= i < |lvl| ==> lvl[i].node == items[i]
    decreases |items|
  {
    if |items| > 0 {
      var c := items[0];
      assert c in items;
      ChildBelow(c, parent);
      var below := if c.Dir? then Entries(c, path + [c.name]) else [];
      if c.Dir? {
        EntriesBeneath(c, path + [c.name]);
      }
      assert forall k :: 0 <= k < |below| ==> |below[k].above| >= |path| + 1;
      AtLevelNone(below, |path|);
      AtLevelAppend([Entry(c, path)] + below, EntriesOf(parent, items[1..], path), |path|);
      AtLevelAppend([Entry(c, path)], below, |path|);
      LevelOfItems(parent, items[1..], path);
    }
  }

  /** The entries printed directly under a directory it can list are its
      entries whose names are not excluded, in listing order; a directory it
      cannot list prints nothing beneath its own line. */
  lemma DirectoryLevel(d: Node, path: seq<string>)
    requires d.Dir?
    ensures d.listable ==> var lvl := AtLevel(Entries(d, path), |path|);
                           && |lvl| == |Listed(d)| && (forall i :: 0 <= i < |lvl| ==> lvl[i].node == Listed(d)[i])
                           && (forall e :: (exists i :: 0 <= i < |lvl| && lvl[i].node == e)
                                 <==> e in d.children && e.name !in ExcludeDirs)
                           && (forall i, j :: 0 <= i < j < |lvl| ==>
                                 exists a, b :: 0 <= a < b < |d.children| && d.children[a] == lvl[i].node
                                                                          && d.children[b] == lvl[j].node)
    ensures !d.listable ==> PrintStructure(d, |path|) == []
  {
    if d.listable {
      LevelOfItems(d, Listed(d), path);
      ListedLevel(AtLevel(Entries(d, path), |path|), d);
    }
  }

  lemma ListedLevel(lvl: seq<Entry>, d: Node)
    requires d.Dir?
    requires |lvl| == |Listed(d)| && forall i :: 0 <= i < |lvl| ==> lvl[i].node == Listed(d)[i]
    ensures forall e :: (exists i :: 0 <= i < |lvl| && lvl[i].node == e) <==> e in d.children && e.name !in ExcludeDirs
    ensures forall i, j :: 0 <= i < j < |lvl| ==>
              exists a, b :: 0 <= a < b < |d.children| && d.children[a] == lvl[i].node && d.children[b] == lvl[j].node
  {
    var listed := Listed(d);
    ListingFacts(lvl, listed, d);
  }

  lemma ListingFacts(lvl: seq<Entry>, listed: seq<Node>, d: Node)
    requires d.Dir?
    requires |lvl| == |listed| && forall i :: 0 <= i < |lvl| ==> lvl[i].node == listed[i]
    requires forall e :: e in listed <==> e in d.children && e.name !in ExcludeDirs
    requires SubsequenceOf(listed, d.children)
    ensures forall e :: (exists i :: 0 <= i < |lvl| && lvl[i].node == e) <==> e in d.children && e.name !in ExcludeDirs
    ensures forall i, j :: 0 <= i < j < |lvl| ==>
              exists a, b :: 0 <= a < b < |d.children| && d.children[a] == lvl[i].node && d.children[b] == lvl[j].node
  {
    ListingMembers(lvl, listed, d);
    ListingOrder(lvl, listed, d);
  }

  /** A level that spells out `listed` holds exactly the listed entries. */
  lemma ListingMembers(lvl: seq<Entry>, listed: seq<Node>, d: Node)
    requires d.Dir?
    requires |lvl| == |listed| && forall i :: 0 <= i < |lvl| ==> lvl[i].node == listed[i]
    requires forall e :: e in listed <==> e in d.children && e.name !in ExcludeDirs
    ensures forall e :: (exists i :: 0 <= i < |lvl| && lvl[i].node == e) <==> e in d.children && e.name !in ExcludeDirs
  {
    forall e ensures (exists i :: 0 <= i < |lvl| && lvl[i].node == e) <==> e in listed {
      if e in listed {
        var i :| 0 <= i < |listed| && listed[i] == e;
        assert lvl[i].node == e;
      }
    }
  }

  /** A level that spells out a subsequence of `d`'s listing keeps the
      listing's order. */
  lemma ListingOrder(lvl: seq<Entry>, listed: seq<Node>, d: Node)
    requires d.Dir?
    requires |lvl| == |listed| && forall i :: 0 <= i < |lvl| ==> lvl[i].node == listed[i]
    requires SubsequenceOf(listed, d.children)
    ensures forall i, j :: 0 <= i < j < |lvl| ==>
              exists a, b :: 0 <= a < b < |d.children| && d.children[a] == lvl[i].node && d.children[b] == lvl[j].node
  {
    SubsequenceOrdered(listed, d.children);
  }
}

=== FILE: output.dfy ===
/** The text the program prints: tree lines, the root line, and the contents
    section. */
module Output {
  import opened TreeWalk

  const Newline: char := '\n'

  /** What a sequence of `print(line)` calls writes: each line followed by a
      newline. */
  function TreeText(lines: seq<string>): (r: string)
    ensures |lines| == 0 ==> r == ""
    ensures |lines| > 0 ==> |r| > 0 && r[|r| - 1] == Newline
    decreases |lines|
  {
    if |lines| == 0 then ""
    else lines[0] + [Newline] + TreeText(lines[1..])
  }

  lemma {:induction false} TreeTextAppend(a: seq<string>, b: seq<string>)
    ensures TreeText(a + b) == TreeText(a) + TreeText(b)
    decreases |a|
  {
    if |a| > 0 {
      assert (a + b)[1..] == a[1..] + b;
      TreeTextAppend(a[1..], b);
    } else {
      assert a + b == b;
    }
  }

  predicate SingleLine(s: string) {
    forall k :: 0 <= k < |s| ==> s[k] != Newline
  }

  /** Reads newline-terminated lines back; text after the last newline is
      its own final line. */
  function ReadLines(text: string): seq<string>
    decreases |text|
  {
    if |text| == 0 then []
    else
      var rest := ReadLines(text[1..]);
      if text[0] == Newline then [""] + rest
      else if |rest| == 0 then [[text[0]]]
      else [[text[0]] + rest[0]] + rest[1..]
  }

  lemma {:induction false} ReadLinesPrefix(line: string, more: string)
    requires SingleLine(line)
    ensures ReadLines(line + [Newline] + more) == [line] + ReadLines(more)
    decreases |line|
  {
    if |line| == 0 {
      assert line + [Newline] + more == [Newline] + more;
      assert ([Newline] + more)[1..] == more;
    } else {
      var text := line + [Newline] + more;
      assert text[0] == line[0];
      assert text[1..] == line[1..] + [Newline] + more;
      ReadLinesPrefix(line[1..], more);
      assert [line[0]] + line[1..] == line;
    }
  }

  /** When no line holds a newline the printed tree splits back into exactly
      its lines. */
  lemma {:induction false} TreeTextReadsBack(lines: seq<string>)
    requires forall k :: 0 <= k < |lines| ==> SingleLine(lines[k])
    ensures ReadLines(TreeText(lines)) == lines
    decreases |lines|
  {
    if |lines| > 0 {
      TreeTextReadsBack(lines[1..]);
      ReadLinesPrefix(lines[0], TreeText(lines[1..]));
    }
  }

  /** One `# <path>` block of the contents section. */
  function CaptureBlock(c: Capture): string {
    "\n# " + c.path + "\n" + c.content + "\n"
  }

  function ContentsSection(captures: seq<Capture>): string
    decreases |captures|
  {
    if |captures| == 0 then "" else CaptureBlock(captures[0]) + ContentsSection(captures[1..])
  }

  lemma {:induction false} ContentsSectionAppend(a: seq<Capture>, b: seq<Capture>)
    ensures ContentsSection(a + b) == ContentsSection(a) + ContentsSection(b)
    decreases |a|
  {
    if |a| > 0 {
      assert (a + b)[1..] == a[1..] + b;
      ContentsSectionAppend(a[1..], b);
    } else {
      assert a + b == b;
    }
  }

  /** The current program's output: the root's name on a line of its own, the
      tree, and, when contents were asked for and some file was captured, a
      blank line and one block per captured file. */
  function Assemble(rootName: string, lines: seq<string>, captures: seq<Capture>, show: bool): (r: string)
    ensures |r| >= |rootName| + 1 + |TreeText(lines)|
    ensures r[..|rootName| + 1] == rootName + [Newline]
    ensures r[|rootName| + 1..|rootName| + 1 + |TreeText(lines)|] == TreeText(lines)
    ensures !show || |captures| == 0 ==> |r| == |rootName| + 1 + |TreeText(lines)|
    ensures show && |captures| > 0 ==> r[|rootName| + 1 + |TreeText(lines)|..] == "\n" + ContentsSection(captures)
    ensures !show || |captures| == 0 ==> r == AssembleTree(rootName, lines)
  {
    var extra := if show && |captures| > 0 then "\n" + ContentsSection(captures) else "";
    Layout(rootName, TreeText(lines), extra);
    rootName + [Newline] + TreeText(lines) + extra
  }

  /** Where the root line, the tree and what follows sit in the output. */
  lemma Layout(name: string, tree: string, extra: string)
    ensures var r := name + [Newline] + tree + extra;
            && |r| == |name| + 1 + |tree| + |extra|
            && r[..|name| + 1] == name + [Newline]
            && r[|name| + 1..|name| + 1 + |tree|] == tree
            && r[|name| + 1 + |tree|..] == extra
  {
  }

  /** Appending text leaves what was already there in place. */
  lemma PrefixKept(s: string, t: string, k: nat)
    requires k <= |s|
    ensures (s + t)[..k] == s[..k]
  {
  }

  /** The earlier program's output: the root's name and the tree. */
  function AssembleTree(rootName: string, lines: seq<string>): (r: string)
    ensures |r| == |rootName| + 1 + |TreeText(lines)|
    ensures r[..|rootName| + 1] == rootName + [Newline]
    ensures r[|rootName| + 1..] == TreeText(lines)
  {
    rootName + [Newline] + TreeText(lines)
  }
}

=== FILE: paths.dfy ===
/** POSIX path strings as the walker builds and takes them apart: `/` is the only
    separator (`os.sep == '/'`). */
module Paths {

  predicate SlashFree(s: string) {
    forall k :: 0 <= k < |s| ==> s[k] != '/'
  }

  /** `'/'.join(parts)`. */
  function Join(parts: seq<string>): string
    decreases |parts|
  {
    if |parts| == 0 then ""
    else if |parts| == 1 then parts[0]
    else parts[0] + "/" + Join(parts[1..])
  }

  /** `s.split('/')`: the pieces between separators, always at least one. */
  function Split(s: string): (parts: seq<string>)
    ensures |parts| >= 1
    decreases |s|
  {
    if |s| == 0 then [""]
    else
      var rest := Split(s[1..]);
      if s[0] == '/' then [""] + rest
      else [[s[0]] + rest[0]] + rest[1..]
  }

  /** The relative path of an entry `name` inside the directory whose relative
      path is `rel` (`os.path.join(rel, name) if rel else name`). */
  function ChildPath(rel: string, name: string): string {
    if rel == "" then name else rel + "/" + name
  }

  /** `os.path.basename(path)`: what follows the last `/`. */
  function Basename(path: string): (r: string)
    ensures IsBasename(r, path)
    decreases |path|
  {
    if |path| == 0 then ""
    else if path[|path| - 1] == '/' then ""
    else
      var init := path[..|path| - 1];
      var b := Basename(init);
      BasenameStep(init, b, path[|path| - 1]);
      assert init + [path[|path| - 1]] == path;
      b + [path[|path| - 1]]
  }

  /** `r` is the slash-free tail of `path` that starts just after a `/` or at
      the start. */
  predicate IsBasename(r: string, path: string) {
    && SlashFree(r)
    && |r| <= |path| && path[|path| - |r|..] == r
    && (|r| < |path| ==> path[|path| - |r| - 1] == '/')
  }

  lemma BasenameStep(init: string, b: string, c: char)
    requires c != '/' && IsBasename(b, init)
    ensures IsBasename(b + [c], init + [c])
  {
    var p := init + [c];
    var r := b + [c];
    assert p[|p| - |r|..] == init[|init| - |b|..] + [c];
    if |r| < |p| {
      assert p[|p| - |r| - 1] == init[|init| - |b| - 1];
    }
  }

  // ---------------------------------------------------------------------------
  // Properties
  // ---------------------------------------------------------------------------

  lemma {:induction false} SplitSlashFree(p: string)
    requires SlashFree(p)
    ensures Split(p) == [p]
    decreases |p|
  {
    if |p| > 0 {
      SplitSlashFree(p[1..]);
      assert [p[0]] + p[1..] == p;
    }
  }

  lemma {:induction false} SplitAfterFirst(p: string, t: string)
    requires SlashFree(p)
    ensures Split(p + "/" + t) == [p] + Split(t)
    decreases |p|
  {
    var s := p + "/" + t;
    if |p| == 0 {
      assert s[1..] == t;
    } else {
      assert s[1..] == p[1..] + "/" + t;
      SplitAfterFirst(p[1..], t);
      assert [p[0]] + p[1..] == p;
    }
  }

  /** Splitting a joined path gives back its components, provided none of them
      contains the separator. */
  lemma {:induction false} SplitJoin(parts: seq<string>)
    requires |parts| >= 1
    requires forall k :: 0 <= k < |parts| ==> SlashFree(parts[k])
    ensures Split(Join(parts)) == parts
    decreases |parts|
  {
    if |parts| == 1 {
      SplitSlashFree(parts[0]);
    } else {
      SplitJoin(parts[1..]);
      SplitAfterFirst(parts[0], Join(parts[1..]));
      assert [parts[0]] + parts[1..] == parts;
    }
  }

  lemma {:induction false} JoinNonEmpty(parts: seq<string>)
    requires |parts| >= 1 && parts[0] != ""
    ensures Join(parts) != ""
  {
    if |parts| > 1 {
      assert |Join(parts)| >= |parts[0]|;
    }
  }

  lemma {:induction false} JoinAppend(parts: seq<string>, name: string)
    requires |parts| >= 1
    ensures Join(parts + [name]) == Join(parts) + "/" + name
    decreases |parts|
  {
    var ps := parts + [name];
    if |parts| == 1 {
      assert ps[1..] == [name];
    } else {
      assert ps[1..] == parts[1..] + [name];
      JoinAppend(parts[1..], name);
    }
  }

  /** Extending a path by one component, the way the walker does as it
      descends, is joining one more component. */
  lemma ChildPathJoin(parts: seq<string>, name: string)
    requires forall k :: 0 <= k < |parts| ==> parts[k] != ""
    ensures Join(parts + [name]) == ChildPath(Join(parts), name)
  {
    if |parts| == 0 {
      assert parts + [name] == [name];
    } else {
      JoinNonEmpty(parts);
      JoinAppend(parts, name);
    }
  }

  /** The basename of a joined path is its last component; a trailing `/`
      makes it empty. */
  lemma {:induction false} BasenameOfJoin(parts: seq<string>)
    requires |parts| >= 1
    requires SlashFree(parts[|parts| - 1])
    ensures Basename(Join(parts)) == parts[|parts| - 1]
    decreases |parts|
  {
    var last := parts[|parts| - 1];
    if |parts| == 1 {
      BasenameSlashFree(last);
    } else {
      JoinAppend(parts[..|parts| - 1], last);
      assert parts[..|parts| - 1] + [last] == parts;
      BasenameAfterSlash(Join(parts[..|parts| - 1]), last);
    }
  }

  lemma {:induction false} BasenameSlashFree(p: string)
    requires SlashFree(p)
    ensures Basename(p) == p
    decreases |p|
  {
    if |p| > 0 {
      BasenameSlashFree(p[..|p| - 1]);
      assert p[..|p| - 1] + [p[|p| - 1]] == p;
    }
  }

  lemma {:induction false} BasenameAfterSlash(head: string, last: string)
    requires SlashFree(last)
    ensures Basename(head + "/" + last) == last
    decreases |last|
  {
    var p := head + "/" + last;
    if |last| > 0 {
      assert p[..|p| - 1] == head + "/" + last[..|last| - 1];
      BasenameAfterSlash(head, last[..|last| - 1]);
      assert last[..|last| - 1] + [last[|last| - 1]] == last;
    } else {
      assert p[|p| - 1] == '/';
    }
  }
}

=== FILE: preferences.dfy ===
/** The exclusion preferences: the built-in defaults and how the command
    line's `--exclude-*` and `--include-*` lists change them. */
module Preferences {
  import opened Glob
  import opened Exclusion

  /** The directory patterns and the file patterns. */
  datatype Prefs = Prefs(excludeDirs: set<string>, excludeFiles: set<string>)

  /** The built-in preferences, used when no preferences file is found. */
  const Defaults: Prefs :=
    Prefs({"venv", "env", "node_modules", "dist", ".idea", ".expo", ".git", "__pycache__"}, {"LICENSE"})

  /** The `--exclude-dir`, `--exclude-file`, `--include-dir` and
      `--include-file` lists, an absent option being the empty set. */
  datatype Adjustments = Adjustments(excludeDirs: set<string>, excludeFiles: set<string>,
                                     includeDirs: set<string>, includeFiles: set<string>)

  /** `update_and_optionally_save_preferences`: the excluded patterns are added. */
  function Update(p: Prefs, dirs: set<string>, files: set<string>): (r: Prefs)
    ensures forall x :: x in r.excludeDirs <==> x in p.excludeDirs || x in dirs
    ensures forall x :: x in r.excludeFiles <==> x in p.excludeFiles || x in files
  {
    Prefs(p.excludeDirs + dirs, p.excludeFiles + files)
  }

  /** `include_back_preferences`: the included patterns are removed. */
  function IncludeBack(p: Prefs, dirs: set<string>, files: set<string>): (r: Prefs)
    ensures forall x :: x in r.excludeDirs <==> x in p.excludeDirs && x !in dirs
    ensures forall x :: x in r.excludeFiles <==> x in p.excludeFiles && x !in files
  {
    Prefs(p.excludeDirs - dirs, p.excludeFiles - files)
  }

  /** The preferences a run walks with: additions first, then removals. */
  function Effective(p: Prefs, a: Adjustments): Prefs {
    IncludeBack(Update(p, a.excludeDirs, a.excludeFiles), a.includeDirs, a.includeFiles)
  }

  /** A pattern is in effect exactly when it was stored or added and not
      included back: an include wins over an exclude of the same pattern. */
  lemma EffectiveMembers(p: Prefs, a: Adjustments, x: string)
    ensures x in Effective(p, a).excludeDirs <==> (x in p.excludeDirs || x in a.excludeDirs) && x !in a.includeDirs
    ensures x in Effective(p, a).excludeFiles <==> (x in p.excludeFiles || x in a.excludeFiles) && x !in a.includeFiles
  {
  }

  /** Passing the same lists twice changes nothing more. */
  lemma AdjustIdempotent(p: Prefs, a: Adjustments)
    ensures Effective(Effective(p, a), a) == Effective(p, a)
  {
    var once := Effective(p, a);
    var twice := Effective(once, a);
    assert twice.excludeDirs == once.excludeDirs by {
      forall x ensures x in twice.excludeDirs <==> x in once.excludeDirs {
        EffectiveMembers(p, a, x);
        EffectiveMembers(once, a, x);
      }
    }
    assert twice.excludeFiles == once.excludeFiles by {
      forall x ensures x in twice.excludeFiles <==> x in once.excludeFiles {
        EffectiveMembers(p, a, x);
        EffectiveMembers(once, a, x);
      }
    }
  }

  /** Including back what was just added restores the preferences, provided
      the added patterns were new. */
  lemma IncludeUndoesExclude(p: Prefs, dirs: set<string>, files: set<string>)
    requires dirs !! p.excludeDirs && files !! p.excludeFiles
    ensures IncludeBack(Update(p, dirs, files), dirs, files) == p
  {
    var r := IncludeBack(Update(p, dirs, files), dirs, files);
    assert r.excludeDirs == p.excludeDirs;
    assert r.excludeFiles == p.excludeFiles;
  }

  /** Adding patterns can only hide more files; including them back can only
      show more. */
  lemma AdjustMonotone(p: Prefs, dirs: set<string>, files: set<string>, name: string)
    ensures FileExcluded(name, p.excludeFiles) ==> FileExcluded(name, Update(p, dirs, files).excludeFiles)
    ensures FileExcluded(name, IncludeBack(p, dirs, files).excludeFiles) ==> FileExcluded(name, p.excludeFiles)
  {
    if FileExcluded(name, IncludeBack(p, dirs, files).excludeFiles) {
      var q :| q in IncludeBack(p, dirs, files).excludeFiles && Matches(name, q);
      assert q in p.excludeFiles;
    }
    if FileExcluded(name, p.excludeFiles) {
      var q :| q in p.excludeFiles && Matches(name, q);
      assert q in Update(p, dirs, files).excludeFiles;
    }
  }

  /** The defaults hold eight directory names and the one file name
      `LICENSE`, which hides exactly files called `LICENSE`. */
  lemma DefaultsContents(name: string)
    ensures |Defaults.excludeDirs| == 8 && Defaults.excludeFiles == {"LICENSE"}
    ensures FileExcluded(name, Defaults.excludeFiles) <==> name == "LICENSE"
  {
    DefaultDirCount();
    var l := "LICENSE";
    assert NoMeta(l) by {
      forall k | 0 <= k < |l| ensures !IsMeta(l[k]) {
      }
    }
    PlainPatternMatchesOnlyItself(name, l);
    if FileExcluded(name, Defaults.excludeFiles) {
      var q :| q in Defaults.excludeFiles && Matches(name, q);
      assert q == l;
    }
  }

  lemma DefaultDirCount()
    ensures |Defaults.excludeDirs| == 8
  {
    var six := {"venv", "env", "node_modules", "dist", ".idea", ".expo"};
    assert |six| == 6;
    assert ".git" !in six && "__pycache__" !in six + {".git"};
    assert Defaults.excludeDirs == six + {".git"} + {"__pycache__"};
  }
}

=== FILE: program.dfy ===
/** The two command-line programs once their arguments are parsed: adjust
    the preferences, check the directory, walk it and assemble what is
    printed. */
module Program {
  import opened Wrappers
  import opened Paths
  import opened FsTree
  import opened Exclusion
  import opened TreeWalk
  import opened Output
  import opened Preferences
  import opened EarlierWalker
  import opened WalkProperties
  import opened RenderFacts

  /** The parsed command line: `--dir`, the four adjustment lists,
      `--dirs-only` and (current program only) `--show-contents`. */
  datatype Invocation = Invocation(path: string, adjust: Adjustments, dirsOnly: bool, showContents: bool)

  function NotFound(path: string): string {
    "The specified directory does not exist: " + path
  }

  /** Whether `os.path.isdir` holds of the directory argument. */
  predicate IsDirectory(root: Option<Node>) {
    root.Some? && root.value.Dir?
  }

  /** The current `main`: what it prints, or the relative path of the
      directory whose listing raised.  `root` is what the directory argument
      names, `None` when nothing exists there. */
  function CurrentMain(prefs: Prefs, inv: Invocation, root: Option<Node>): (r: Result<string, string>)
    ensures !IsDirectory(root) ==> r == Success(NotFound(inv.path) + "\n")
    ensures IsDirectory(root) && r.Success? ==>
              |r.value| > |Basename(inv.path)| && r.value[..|Basename(inv.path)| + 1] == Basename(inv.path) + "\n"
  {
    if !IsDirectory(root) then Success(NotFound(inv.path) + "\n")
    else
      var eff := Effective(prefs, inv.adjust);
      var w :- Walk(PathRules(eff.excludeDirs, eff.excludeFiles), root.value, "", "",
                    Options(inv.dirsOnly, inv.showContents));
      var out := Assemble(Basename(inv.path), w.lines, w.captures, inv.showContents);
      PrefixKept(out, "\n", |Basename(inv.path)| + 1);
      Success(out + "\n")
  }

  /** The earlier `main`, which has no contents option. */
  function EarlierMain(prefs: Prefs, inv: Invocation, root: Option<Node>): (r: Result<string, string>)
    ensures !IsDirectory(root) ==> r == Success(NotFound(inv.path) + "\n")
    ensures IsDirectory(root) && r.Success? ==>
              |r.value| > |Basename(inv.path)| && r.value[..|Basename(inv.path)| + 1] == Basename(inv.path) + "\n"
  {
    if !IsDirectory(root) then Success(NotFound(inv.path) + "\n")
    else
      var eff := Effective(prefs, inv.adjust);
      var out :- EarlierOutput(eff.excludeDirs, eff.excludeFiles, inv.path, root.value, inv.dirsOnly);
      PrefixKept(out, "\n", |Basename(inv.path)| + 1);
      Success(out + "\n")
  }

  /** The current program prints the root's name, one line per pre-order
      visit under the effective preferences, and, when asked for and some
      file was visited, a blank line and one block per visited file; it fails
      exactly when a visited directory cannot be listed. */
  lemma CurrentMainPrints(prefs: Prefs, inv: Invocation, root: Node)
    requires WellFormed(root) && root.Dir?
    ensures var eff := Effective(prefs, inv.adjust);
            var pre := RootVisits(PathRules(eff.excludeDirs, eff.excludeFiles), root, inv.dirsOnly);
            var r := CurrentMain(prefs, inv, Some(root));
            && (r.Success? <==> root.listable && AllListable(pre))
            && (r.Success? ==> r.value == Assemble(Basename(inv.path), Lines(pre),
                                                   if inv.showContents then Captures(pre) else [],
                                                   inv.showContents) + "\n")
            && (r.Failure? ==> r.error == if root.listable then FirstBlocked(pre) else "")
  {
    var eff := Effective(prefs, inv.adjust);
    var rules := PathRules(eff.excludeDirs, eff.excludeFiles);
    var opts := Options(inv.dirsOnly, inv.showContents);
    WalkAgrees(rules, root, [], [], opts);
    var w := Walk(rules, root, "", "", opts);
    assert Join([]) == "" && Indentation([]) == "";
    if w.Success? {
      assert CurrentMain(prefs, inv, Some(root)) == Success(Assemble(Basename(inv.path), w.value.lines, w.value.captures, inv.showContents) + "\n");
    }
  }

  /** With `--dirs-only`, or without `--show-contents`, the current program
      prints the root's name and the tree and nothing after it. */
  lemma NoContentsSection(prefs: Prefs, inv: Invocation, root: Node)
    requires WellFormed(root) && root.Dir?
    requires inv.dirsOnly || !inv.showContents
    ensures var eff := Effective(prefs, inv.adjust);
            var pre := RootVisits(PathRules(eff.excludeDirs, eff.excludeFiles), root, inv.dirsOnly);
            var r := CurrentMain(prefs, inv, Some(root));
            && (r.Success? <==> root.listable && AllListable(pre))
            && (r.Success? ==> r.value == AssembleTree(Basename(inv.path), Lines(pre)) + "\n")
  {
    var eff := Effective(prefs, inv.adjust);
    var rules := PathRules(eff.excludeDirs, eff.excludeFiles);
    var pre := RootVisits(rules, root, inv.dirsOnly);
    CurrentMainPrints(prefs, inv, root);
    var captures := if inv.showContents then Captures(pre) else [];
    if inv.dirsOnly {
      DirsOnlyRendersDirectories(rules, root, inv.showContents);
      NoFilesNoCaptures(pre);
    }
    assert !inv.showContents || |captures| == 0;
  }

  /** The earlier program prints the root's name and one line per pre-order
      visit under name rules, and fails exactly when a visited directory
      cannot be listed. */
  lemma EarlierMainPrints(prefs: Prefs, inv: Invocation, root: Node)
    requires WellFormed(root) && root.Dir?
    ensures var eff := Effective(prefs, inv.adjust);
            var pre := RootVisits(NameRules(eff.excludeDirs, eff.excludeFiles), root, inv.dirsOnly);
            var r := EarlierMain(prefs, inv, Some(root));
            && (r.Success? <==> root.listable && AllListable(pre))
            && (r.Success? ==> r.value == Basename(inv.path) + "\n" + TreeText(Lines(pre)) + "\n")
            && (r.Failure? ==> r.error == if root.listable then FirstBlocked(pre) else "")
  {
    var eff := Effective(prefs, inv.adjust);
    EarlierOutputPrints(eff.excludeDirs, eff.excludeFiles, inv.path, root, inv.dirsOnly);
  }

  /** The earlier program's output once the directory was found, in terms of
      the pre-order visits under name rules. */
  lemma EarlierOutputPrints(dirs: set<string>, files: set<string>, path: string, root: Node, dirsOnly: bool)
    requires WellFormed(root) && root.Dir?
    ensures var pre := RootVisits(NameRules(dirs, files), root, dirsOnly);
            var r := EarlierOutput(dirs, files, path, root, dirsOnly);
            && (r.Success? <==> root.listable && AllListable(pre))
            && (r.Success? ==> r.value == Basename(path) + "\n" + TreeText(Lines(pre)))
            && (r.Failure? ==> r.error == if root.listable then FirstBlocked(pre) else "")
  {
    var rules := NameRules(dirs, files);
    EarlierMatchesEngine(dirs, files, root, "", "", dirsOnly);
    WalkAgrees(rules, root, [], [], Options(dirsOnly, false));
    assert Join([]) == "" && Indentation([]) == "";
  }
}

=== FILE: render_facts.dfy ===
/** The renderer's promises, stated for a walk from the scan root. */
module RenderFacts {
  import opened Wrappers
  import opened Paths
  import opened FsTree
  import opened Exclusion
  import opened FileText
  import opened TreeWalk
  import opened WalkProperties
  import opened WalkShape

  /** `print_dir_structure(root, ...)` with its default `prefix` and relative
      path. */
  function RenderTree(rules: Rules, root: Node, opts: Options): Result<Rendering, string> {
    Walk(rules, root, "", "", opts)
  }

  /** The visits of a walk from the scan root. */
  function RootVisits(rules: Rules, root: Node, dirsOnly: bool): seq<Visit> {
    Preorder(rules, root, [], [], dirsOnly)
  }

  /** The rendering is the list of root visits, one line each. */
  lemma RenderMatchesVisits(rules: Rules, root: Node, opts: Options)
    requires WellFormed(root)
    ensures var w := RenderTree(rules, root, opts);
            var pre := RootVisits(rules, root, opts.dirsOnly);
            && (w.Success? <==> root.Dir? && root.listable && AllListable(pre))
            && (w.Success? ==> |w.value.lines| == |pre|
                               && (forall k :: 0 <= k < |pre| ==> w.value.lines[k] == Line(pre[k]))
                               && w.value.captures == (if opts.showContents then Captures(pre) else []))
            && (w.Failure? ==> w.error == if root.Dir? && root.listable then FirstBlocked(pre) else "")
  {
    WalkAgrees(rules, root, [], [], opts);
    assert Join([]) == "";
  }

  /** Whether file contents are captured does not change the tree. */
  lemma TreeIgnoresShowContents(rules: Rules, root: Node, dirsOnly: bool)
    requires WellFormed(root)
    ensures var on := RenderTree(rules, root, Options(dirsOnly, true));
            var off := RenderTree(rules, root, Options(dirsOnly, false));
            && on.Success? == off.Success?
            && (on.Success? ==> on.value.lines == off.value.lines)
            && (off.Success? ==> off.value.captures == [])
  {
    WalkAgrees(rules, root, [], [], Options(dirsOnly, true));
    WalkAgrees(rules, root, [], [], Options(dirsOnly, false));
  }

  lemma {:induction false} NoFilesNoCaptures(vs: seq<Visit>)
    requires forall k :: 0 <= k < |vs| ==> vs[k].node.Dir?
    ensures Captures(vs) == []
    decreases |vs|
  {
    if |vs| > 0 {
      NoFilesNoCaptures(vs[1..]);
    }
  }

  /** With `dirsOnly` every rendered entry is a directory and nothing is
      captured, whether or not contents were asked for. */
  lemma DirsOnlyRendersDirectories(rules: Rules, root: Node, show: bool)
    requires WellFormed(root)
    ensures var w := RenderTree(rules, root, Options(true, show));
            var pre := RootVisits(rules, root, true);
            && (forall k :: 0 <= k < |pre| ==> pre[k].node.Dir?)
            && (w.Success? ==> w.value.captures == [])
  {
    PreorderBeneath(rules, root, [], [], true);
    WalkAgrees(rules, root, [], [], Options(true, show));
    NoFilesNoCaptures(RootVisits(rules, root, true));
  }

  /** One capture per rendered file, in rendering order, keyed by the file's
      path from the scan root. */
  lemma {:induction false} CapturesFollowFileVisits(vs: seq<Visit>)
    ensures |Captures(vs)| == |FileVisits(vs)|
    ensures forall k :: 0 <= k < |FileVisits(vs)| ==>
              Captures(vs)[k] == Capture(Join(FileVisits(vs)[k].parts), ReadFileContents(FileVisits(vs)[k].node.read))
    decreases |vs|
  {
    if |vs| > 0 {
      CapturesFollowFileVisits(vs[1..]);
    }
  }

  function FileVisits(vs: seq<Visit>): (r: seq<Visit>)
    ensures forall k :: 0 <= k < |r| ==> r[k].node.File?
    decreases |vs|
  {
    if |vs| == 0 then []
    else if vs[0].node.File? then [vs[0]] + FileVisits(vs[1..])
    else FileVisits(vs[1..])
  }

  // ---------------------------------------------------------------------------
  // Prefixes and glyphs
  // ---------------------------------------------------------------------------

  /** Each enclosing level adds exactly four characters, either spaces or a
      vertical bar and three spaces. */
  lemma {:induction false} IndentationShape(trail: seq<bool>)
    ensures |Indentation(trail)| == 4 * |trail|
    ensures forall k :: 0 <= k < |Indentation(trail)| ==> Indentation(trail)[k] in {' ', '│'}
    decreases |trail|
  {
    if |trail| > 0 {
      var t := trail[..|trail| - 1];
      IndentationShape(t);
      var e := Extension(trail[|trail| - 1]);
      assert |e| == 4 && forall k :: 0 <= k < 4 ==> e[k] in {' ', '│'};
      var ind := Indentation(trail);
      assert ind == Indentation(t) + e;
      forall k | 0 <= k < |ind| ensures ind[k] in {' ', '│'} {
        if k >= |Indentation(t)| {
          assert ind[k] == e[k - |Indentation(t)|];
        } else {
          assert ind[k] == Indentation(t)[k];
        }
      }
    }
  }

  /** A line at depth `n` (0 for the root's own entries) starts with a prefix of
      exactly `4 n` characters, followed by the glyph and the entry's name. */
  lemma LineLayout(rules: Rules, root: Node, dirsOnly: bool, k: nat)
    requires WellFormed(root)
    requires k < |RootVisits(rules, root, dirsOnly)|
    ensures var v := RootVisits(rules, root, dirsOnly)[k];
            var depth := |v.parts| - 1;
            && |v.trail| == depth
            && |Indentation(v.trail)| == 4 * depth
            && Line(v) == Indentation(v.trail) + Glyph(v.last) + v.node.name
  {
    var v := RootVisits(rules, root, dirsOnly)[k];
    PreorderBeneath(rules, root, [], [], dirsOnly);
    assert VisitBeneath(rules, v, [], [], dirsOnly);
    IndentationShape(v.trail);
  }

  /** Level `k` of a prefix is four spaces when the enclosing directory at that
      depth was the last survivor of its own directory, and a vertical bar with
      three spaces otherwise. */
  lemma {:induction false} IndentationAt(trail: seq<bool>, k: nat)
    requires k < |trail|
    ensures |Indentation(trail)| == 4 * |trail|
    ensures Indentation(trail)[4 * k..4 * k + 4] == if trail[k] then "    " else "│   "
    decreases |trail|
  {
    var t := trail[..|trail| - 1];
    IndentationShape(trail);
    IndentationShape(t);
    var e := Extension(trail[|trail| - 1]);
    assert Indentation(trail) == Indentation(t) + e;
    if k == |trail| - 1 {
      assert Indentation(trail)[4 * k..4 * k + 4] == e;
    } else {
      IndentationAt(t, k);
      assert t[k] == trail[k];
      assert Indentation(trail)[4 * k..4 * k + 4] == Indentation(t)[4 * k..4 * k + 4];
    }
  }

  /** Flags that extend `t` give a prefix that extends `t`'s prefix. */
  lemma {:induction false} IndentationPrefix(t: seq<bool>, u: seq<bool>)
    requires |t| <= |u| && u[..|t|] == t
    ensures |Indentation(u)| >= 4 * |t|
    ensures Indentation(u)[..4 * |t|] == Indentation(t)
    decreases |u|
  {
    IndentationShape(u);
    IndentationShape(t);
    if |u| == |t| {
      assert u == t;
    } else {
      var init := u[..|u| - 1];
      assert init[..|t|] == t;
      IndentationPrefix(t, init);
      IndentationShape(init);
      assert Indentation(u) == Indentation(init) + Extension(u[|u| - 1]);
      assert Indentation(u)[..4 * |t|] == Indentation(init)[..4 * |t|];
    }
  }

  /** Every line in the block beneath a directory entry (the visits that
      follow it in `PreorderEntries`) continues the directory's own prefix with
      four spaces when the directory is the last survivor and with `│   `
      otherwise. */
  lemma ContinuationPrefix(rules: Rules, c: Node, cparts: seq<string>, trail: seq<bool>, last: bool, dirsOnly: bool)
    requires WellFormed(c)
    ensures var block := Preorder(rules, c, cparts, trail + [last], dirsOnly);
            forall k :: 0 <= k < |block| ==>
              && |Indentation(block[k].trail)| >= 4 * |trail| + 4
              && Indentation(block[k].trail)[..4 * |trail| + 4] == Indentation(trail) + (if last then "    " else "│   ")
              && Line(block[k])[..4 * |trail| + 4] == Indentation(trail) + (if last then "    " else "│   ")
  {
    var t := trail + [last];
    var block := Preorder(rules, c, cparts, t, dirsOnly);
    assert 4 * |t| == 4 * |trail| + 4;
    PreorderBeneath(rules, c, cparts, t, dirsOnly);
    ContinuationSpelled(trail, last);
    forall k | 0 <= k < |block|
      ensures |Indentation(block[k].trail)| >= 4 * |t|
      ensures Indentation(block[k].trail)[..4 * |t|] == Indentation(t)
      ensures Line(block[k])[..4 * |t|] == Indentation(t)
    {
      ContinuationOfPlaced(block[k], cparts, t);
    }
  }

  lemma ContinuationOfPlaced(w: Visit, cparts: seq<string>, t: seq<bool>)
    requires Placed(w, cparts, t)
    ensures |Indentation(w.trail)| >= 4 * |t|
    ensures Indentation(w.trail)[..4 * |t|] == Indentation(t)
    ensures Line(w)[..4 * |t|] == Indentation(t)
  {
    IndentationPrefix(t, w.trail);
    LinePrefix(w, 4 * |t|);
  }

  lemma ContinuationSpelled(trail: seq<bool>, last: bool)
    ensures Indentation(trail + [last]) == Indentation(trail) + (if last then "    " else "│   ")
  {
    IndentationSnoc(trail, last);
    ExtensionSpelled(last);
  }

  /** The two continuation strings, spelled out. */
  lemma ExtensionSpelled(last: bool)
    ensures Extension(last) == if last then "    " else "│   "
  {
  }

  lemma LinePrefix(v: Visit, n: nat)
    requires n <= |Indentation(v.trail)|
    ensures Line(v)[..n] == Indentation(v.trail)[..n]
  {
    ConcatPrefix(Indentation(v.trail), Glyph(v.last) + v.node.name, n);
  }

  lemma ConcatPrefix(a: string, b: string, n: nat)
    requires n <= |a|
    ensures (a + b)[..n] == a[..n]
  {
  }

  /** The entries of one level, keeping only the visits at a given depth. */
  function AtDepth(vs: seq<Visit>, n: nat): seq<Visit>
    decreases |vs|
  {
    if |vs| == 0 then []
    else if |vs[0].parts| == n then [vs[0]] + AtDepth(vs[1..], n)
    else AtDepth(vs[1..], n)
  }

  lemma {:induction false} AtDepthAppend(a: seq<Visit>, b: seq<Visit>, n: nat)
    ensures AtDepth(a + b, n) == AtDepth(a, n) + AtDepth(b, n)
    decreases |a|
  {
    if |a| > 0 {
      assert (a + b)[1..] == a[1..] + b;
      AtDepthAppend(a[1..], b, n);
    } else {
      assert a + b == b;
    }
  }

  lemma {:induction false} AtDepthNone(vs: seq<Visit>, n: nat)
    requires forall k :: 0 <= k < |vs| ==> |vs[k].parts| > n
    ensures AtDepth(vs, n) == []
    decreases |vs|
  {
    if |vs| > 0 {
      AtDepthNone(vs[1..], n);
    }
  }

  /** Everything beneath a directory lies deeper than the directory itself. */
  lemma BelowIsDeeper(rules: Rules, c: Node, cparts: seq<string>, trail: seq<bool>, dirsOnly: bool)
    requires WellFormed(c)
    ensures forall k :: 0 <= k < |Preorder(rules, c, cparts, trail, dirsOnly)| ==>
              |Preorder(rules, c, cparts, trail, dirsOnly)[k].parts| > |cparts|
  {
    PreorderBeneath(rules, c, cparts, trail, dirsOnly);
  }

  lemma LevelStep(v: Visit, below: seq<Visit>, rest: seq<Visit>, n: nat)
    requires |v.parts| == n
    requires forall k :: 0 <= k < |below| ==> |below[k].parts| > n
    ensures AtDepth([v] + below + rest, n) == [v] + AtDepth(rest, n)
  {
    AtDepthNone(below, n);
    AtDepthAppend([v] + below, rest, n);
    AtDepthAppend([v], below, n);
  }

  lemma {:induction false} LevelOfEntries(rules: Rules, parent: Node, entries: seq<Node>, parts: seq<string>, trail: seq<bool>, dirsOnly: bool)
    requires parent.Dir? && WellFormed(parent)
    requires forall e :: e in entries ==> e in parent.children
    ensures LevelMatches(AtDepth(PreorderEntries(rules, parent, entries, parts, trail, dirsOnly), |parts| + 1), entries)
    decreases |entries|
  {
    if |entries| > 0 {
      var c := entries[0];
      var cparts := parts + [c.name];
      var v := Visit(c, cparts, trail, |entries| == 1);
      assert c in entries;
      ChildBelow(c, parent);
      ChildWellFormed(c, parent);
      var below := if c.Dir? then Preorder(rules, c, cparts, trail + [v.last], dirsOnly) else [];
      var restP := PreorderEntries(rules, parent, entries[1..], parts, trail, dirsOnly);
      assert PreorderEntries(rules, parent, entries, parts, trail, dirsOnly) == [v] + below + restP;
      BelowIsDeeper(rules, c, cparts, trail + [v.last], dirsOnly);
      LevelStep(v, below, restP, |parts| + 1);
      LevelOfEntries(rules, parent, entries[1..], parts, trail, dirsOnly);
      LevelCons(v, AtDepth(restP, |parts| + 1), entries);
    }
  }

  /** The level lists the entries in order and flags exactly the last one. */
  predicate LevelMatches(lvl: seq<Visit>, entries: seq<Node>) {
    && |lvl| == |entries|
    && forall i :: 0 <= i < |lvl| ==> lvl[i].node == entries[i] && (lvl[i].last <==> i == |entries| - 1)
  }

  lemma LevelCons(v: Visit, rest: seq<Visit>, entries: seq<Node>)
    requires |entries| > 0 && v.node == entries[0] && (v.last <==> |entries| == 1)
    requires LevelMatches(rest, entries[1..])
    ensures LevelMatches([v] + rest, entries)
  {
    var lvl := [v] + rest;
    forall i | 0 <= i < |lvl| ensures lvl[i].node == entries[i] && (lvl[i].last <==> i == |entries| - 1) {
      if i > 0 {
        assert lvl[i] == rest[i - 1];
      }
    }
  }

  /** The visits one level below `d` are its survivors, in order. */
  lemma LevelIsSurvivors(rules: Rules, d: Node, parts: seq<string>, trail: seq<bool>, dirsOnly: bool)
    requires WellFormed(d) && d.Dir? && d.listable
    ensures LevelMatches(AtDepth(Preorder(rules, d, parts, trail, dirsOnly), |parts| + 1),
                         Survivors(rules, d, Join(parts), dirsOnly))
  {
    var s := Survivors(rules, d, Join(parts), dirsOnly);
    assert Preorder(rules, d, parts, trail, dirsOnly) == PreorderEntries(rules, d, s, parts, trail, dirsOnly);
    LevelOfEntries(rules, d, s, parts, trail, dirsOnly);
  }

  /** The entries a directory shows are exactly its kept entries (only its
      directories with `dirsOnly`), in strictly ascending code-point order of
      name, files and directories interleaved; the last of them, and only it,
      gets the terminal glyph. */
  lemma DirectoryLevel(rules: Rules, d: Node, parts: seq<string>, trail: seq<bool>, dirsOnly: bool)
    requires WellFormed(d) && d.Dir? && d.listable
    ensures var lvl := AtDepth(Preorder(rules, d, parts, trail, dirsOnly), |parts| + 1);
            && (forall e :: (exists i :: 0 <= i < |lvl| && lvl[i].node == e)
                  <==> e in d.children && Keeps(rules, Join(parts), e.name, e.File?) && (dirsOnly ==> e.Dir?))
            && (forall i, j :: 0 <= i < j < |lvl| ==> NameLt(lvl[i].node.name, lvl[j].node.name))
            && (forall i :: 0 <= i < |lvl| ==> Glyph(lvl[i].last) == if i == |lvl| - 1 then "└── " else "├── ")
  {
    LevelIsSurvivors(rules, d, parts, trail, dirsOnly);
    LevelFacts(rules, d, Join(parts), dirsOnly, AtDepth(Preorder(rules, d, parts, trail, dirsOnly), |parts| + 1));
  }

  lemma LevelFacts(rules: Rules, d: Node, rel: string, dirsOnly: bool, lvl: seq<Visit>)
    requires d.Dir? && DistinctNames(d.children)
    requires LevelMatches(lvl, Survivors(rules, d, rel, dirsOnly))
    ensures forall e :: (exists i :: 0 <= i < |lvl| && lvl[i].node == e)
              <==> e in d.children && Keeps(rules, rel, e.name, e.File?) && (dirsOnly ==> e.Dir?)
    ensures forall i, j :: 0 <= i < j < |lvl| ==> NameLt(lvl[i].node.name, lvl[j].node.name)
    ensures forall i :: 0 <= i < |lvl| ==> Glyph(lvl[i].last) == if i == |lvl| - 1 then "└── " else "├── "
  {
    var s := Survivors(rules, d, rel, dirsOnly);
    LevelMembers(lvl, s);
    LevelOrder(lvl, s);
    forall e ensures (exists i :: 0 <= i < |lvl| && lvl[i].node == e)
                     <==> e in d.children && Keeps(rules, rel, e.name, e.File?) && (dirsOnly ==> e.Dir?) {
      assert (exists i :: 0 <= i < |lvl| && lvl[i].node == e) <==> e in s;
    }
  }

  lemma LevelMembers(lvl: seq<Visit>, s: seq<Node>)
    requires LevelMatches(lvl, s)
    ensures forall e :: (exists i :: 0 <= i < |lvl| && lvl[i].node == e) <==> e in s
  {
    forall e ensures (exists i :: 0 <= i < |lvl| && lvl[i].node == e) <==> e in s {
      if e in s {
        var i :| 0 <= i < |s| && s[i] == e;
        assert lvl[i].node == e;
      }
    }
  }

  lemma LevelOrder(lvl: seq<Visit>, s: seq<Node>)
    requires LevelMatches(lvl, s) && StrictlyAscending(s)
    ensures forall i, j :: 0 <= i < j < |lvl| ==> NameLt(lvl[i].node.name, lvl[j].node.name)
  {
  }

  // ---------------------------------------------------------------------------
  // What each rule set keeps out
  // ---------------------------------------------------------------------------

  /** A visit from the scan root, with what `PreorderBeneath` says of it. */
  lemma RootVisitBeneath(rules: Rules, root: Node, dirsOnly: bool, v: Visit)
    requires WellFormed(root)
    requires v in RootVisits(rules, root, dirsOnly)
    ensures VisitBeneath(rules, v, [], [], dirsOnly)
  {
    PreorderBeneath(rules, root, [], [], dirsOnly);
    var k :| 0 <= k < |RootVisits(rules, root, dirsOnly)| && RootVisits(rules, root, dirsOnly)[k] == v;
  }

  /** The path of the first `j` names extends the path of the first `j - 1`. */
  lemma PrefixPath(ps: seq<string>, j: nat)
    requires 1 <= j <= |ps|
    requires forall k :: 0 <= k < |ps| ==> ValidName(ps[k])
    ensures Join(ps[..j]) == ChildPath(Join(ps[..j - 1]), ps[j - 1])
  {
    var pre := ps[..j - 1];
    forall i | 0 <= i < |pre| ensures pre[i] != "" {
      assert ValidName(ps[i]);
    }
    ChildPathJoin(pre, ps[j - 1]);
    assert pre + [ps[j - 1]] == ps[..j];
  }

  /** Current walker: no rendered entry has an excluded path or lies beneath a
      directory with one, and no rendered file matches a file pattern. */
  lemma NothingExcludedIsRendered(dirs: set<string>, files: set<string>, root: Node, dirsOnly: bool, v: Visit)
    requires WellFormed(root)
    requires v in RootVisits(PathRules(dirs, files), root, dirsOnly)
    ensures !PathExcluded(Join(v.parts), dirs)
    ensures v.node.File? ==> !FileExcluded(v.node.name, files)
    ensures forall j :: 1 <= j < |v.parts| ==> !PathExcluded(Join(v.parts[..j]), dirs)
  {
    var rules := PathRules(dirs, files);
    RootVisitBeneath(rules, root, dirsOnly, v);
    var n := |v.parts|;
    PrefixPath(v.parts, n);
    assert v.parts[..n] == v.parts;
    forall j | 1 <= j < n ensures !PathExcluded(Join(v.parts[..j]), dirs) {
      PrefixPath(v.parts, j);
      assert Keeps(rules, Join(v.parts[..j - 1]), v.parts[j - 1], false);
    }
  }

  /** Earlier walker: no rendered entry, and no directory above it, has a name
      in the directory set or matching a file pattern. */
  lemma NoExcludedNameIsRendered(dirs: set<string>, files: set<string>, root: Node, dirsOnly: bool, v: Visit)
    requires WellFormed(root)
    requires v in RootVisits(NameRules(dirs, files), root, dirsOnly)
    ensures forall j :: 0 <= j < |v.parts| ==> v.parts[j] !in dirs && !FileExcluded(v.parts[j], files)
    ensures v.node.name !in dirs && !FileExcluded(v.node.name, files)
  {
    var rules := NameRules(dirs, files);
    RootVisitBeneath(rules, root, dirsOnly, v);
    forall j | 0 <= j < |v.parts| ensures v.parts[j] !in dirs && !FileExcluded(v.parts[j], files) {
      if j < |v.parts| - 1 {
        assert Keeps(rules, Join(v.parts[..j]), v.parts[j], false);
      }
    }
  }
}

=== FILE: tree_walk.dfy ===
/** The tree renderer (`print_dir_structure` of both walker versions).

    A directory's entries are sorted by name, the ones the rules leave out are
    dropped, with `dirsOnly` the files are dropped too, and each survivor
    becomes one line `prefix + glyph + name`: the last survivor gets `└── `,
    the others `├── `.  Under a directory's line come the lines of its own
    entries, rendered with the prefix extended by four spaces when the
    directory was the last survivor and by `│   ` otherwise.  Each file line
    can also capture the file's shown contents, keyed by its relative path.

    A directory that cannot be listed aborts the whole rendering, as the
    uncaught `PermissionError` from `os.listdir` does in
    `print_dir_structure`; the failure carries the directory's relative
    path. */
module TreeWalk {
  import opened Wrappers
  import opened Paths
  import opened FsTree
  import opened Exclusion
  import opened FileText

  const MidGlyph: string := "├── "
  const LastGlyph: string := "└── "
  const MidExtension: string := "│   "
  const LastExtension: string := "    "

  function Glyph(last: bool): string {
    if last then LastGlyph else MidGlyph
  }

  /** What a directory adds to the prefix of the lines beneath it. */
  function Extension(last: bool): string {
    if last then LastExtension else MidExtension
  }

  datatype Options = Options(dirsOnly: bool, showContents: bool)

  /** One `(relative path, shown contents)` pair. */
  datatype Capture = Capture(path: string, content: string)

  /** The lines of the tree (each printed with a trailing newline) and the
      captured file contents. */
  datatype Rendering = Rendering(lines: seq<string>, captures: seq<Capture>)

  /** `r` is `s` with some elements dropped and the rest in their order. */
  predicate SubsequenceOf<T(==)>(r: seq<T>, s: seq<T>)
    decreases |s|
  {
    if |r| == 0 then true
    else if |s| == 0 then false
    else (r[0] == s[0] && SubsequenceOf(r[1..], s[1..])) || SubsequenceOf(r, s[1..])
  }

  lemma {:induction false} SubsequenceMembers<T>(r: seq<T>, s: seq<T>, x: T)
    requires SubsequenceOf(r, s) && x in r
    ensures x in s
    decreases |s|
  {
    if r[0] == s[0] && SubsequenceOf(r[1..], s[1..]) {
      if x != r[0] {
        assert x in r[1..];
        SubsequenceMembers(r[1..], s[1..], x);
      }
    } else {
      SubsequenceMembers(r, s[1..], x);
    }
  }

  /** Two elements of a subsequence sit in `s` in the same order. */
  lemma {:induction false} SubsequenceOrder<T>(r: seq<T>, s: seq<T>, i: nat, j: nat)
    requires SubsequenceOf(r, s) && i < j < |r|
    ensures exists a, b :: 0 <= a < b < |s| && s[a] == r[i] && s[b] == r[j]
    decreases |s|
  {
    if r[0] == s[0] && SubsequenceOf(r[1..], s[1..]) {
      if i == 0 {
        assert r[j] in r[1..] by { assert r[1..][j - 1] == r[j]; }
        SubsequenceMembers(r[1..], s[1..], r[j]);
        var b :| 0 <= b < |s[1..]| && s[1..][b] == r[j];
        assert s[0] == r[i] && s[b + 1] == r[j];
      } else {
        SubsequenceOrder(r[1..], s[1..], i - 1, j - 1);
        var a, b :| 0 <= a < b < |s[1..]| && s[1..][a] == r[1..][i - 1] && s[1..][b] == r[1..][j - 1];
        assert s[a + 1] == r[i] && s[b + 1] == r[j];
      }
    } else {
      SubsequenceOrder(r, s[1..], i, j);
      var a, b :| 0 <= a < b < |s[1..]| && s[1..][a] == r[i] && s[1..][b] == r[j];
      assert s[a + 1] == r[i] && s[b + 1] == r[j];
    }
  }

  lemma SubsequenceOrdered<T>(r: seq<T>, s: seq<T>)
    requires SubsequenceOf(r, s)
    ensures forall i, j :: 0 <= i < j < |r| ==>
              exists a, b :: 0 <= a < b < |s| && s[a] == r[i] && s[b] == r[j]
  {
    forall i, j | 0 <= i < j < |r|
      ensures exists a, b :: 0 <= a < b < |s| && s[a] == r[i] && s[b] == r[j]
    {
      SubsequenceOrder(r, s, i, j);
    }
  }

  /** Keeping `x` in front of a subsequence of the tail. */
  lemma SubsequenceStep<T>(s: seq<T>, rest: seq<T>, keep: bool)
    requires |s| > 0 && SubsequenceOf(rest, s[1..])
    ensures SubsequenceOf(if keep then [s[0]] + rest else rest, s)
  {
    if keep {
      assert ([s[0]] + rest)[1..] == rest;
    }
  }

  /** The entries of `s` that the rules keep, in their original order. */
  function KeptEntries(rules: Rules, rel: string, s: seq<Node>): (r: seq<Node>)
    ensures forall e :: e in r <==> e in s && Keeps(rules, rel, e.name, e.File?)
    ensures Ascending(s) ==> Ascending(r)
    ensures DistinctNames(s) ==> DistinctNames(r)
    ensures SubsequenceOf(r, s)
    decreases |s|
  {
    if |s| == 0 then []
    else
      var rest := KeptEntries(rules, rel, s[1..]);
      KeptStep(rules, rel, s, rest);
      if Keeps(rules, rel, s[0].name, s[0].File?) then [s[0]] + rest else rest
  }

  lemma KeptStep(rules: Rules, rel: string, s: seq<Node>, rest: seq<Node>)
    requires |s| > 0
    requires forall e :: e in rest <==> e in s[1..] && Keeps(rules, rel, e.name, e.File?)
    requires Ascending(s[1..]) ==> Ascending(rest)
    requires DistinctNames(s[1..]) ==> DistinctNames(rest)
    requires SubsequenceOf(rest, s[1..])
    ensures var r := if Keeps(rules, rel, s[0].name, s[0].File?) then [s[0]] + rest else rest;
            && (forall e :: e in r <==> e in s && Keeps(rules, rel, e.name, e.File?))
            && (Ascending(s) ==> Ascending(r))
            && (DistinctNames(s) ==> DistinctNames(r))
            && SubsequenceOf(r, s)
  {
    assert s == [s[0]] + s[1..];
    SublistFacts(s, rest);
    SubsequenceStep(s, rest, Keeps(rules, rel, s[0].name, s[0].File?));
  }

  /** The directories of `s`, in their original order. */
  function Directories(s: seq<Node>): (r: seq<Node>)
    ensures forall e :: e in r <==> e in s && e.Dir?
    ensures Ascending(s) ==> Ascending(r)
    ensures DistinctNames(s) ==> DistinctNames(r)
    ensures SubsequenceOf(r, s)
    decreases |s|
  {
    if |s| == 0 then []
    else
      var rest := Directories(s[1..]);
      DirectoryStep(s, rest);
      if s[0].Dir? then [s[0]] + rest else rest
  }

  lemma DirectoryStep(s: seq<Node>, rest: seq<Node>)
    requires |s| > 0
    requires forall e :: e in rest <==> e in s[1..] && e.Dir?
    requires Ascending(s[1..]) ==> Ascending(rest)
    requires DistinctNames(s[1..]) ==> DistinctNames(rest)
    requires SubsequenceOf(rest, s[1..])
    ensures var r := if s[0].Dir? then [s[0]] + rest else rest;
            && (forall e :: e in r <==> e in s && e.Dir?)
            && (Ascending(s) ==> Ascending(r))
            && (DistinctNames(s) ==> DistinctNames(r))
            && SubsequenceOf(r, s)
  {
    assert s == [s[0]] + s[1..];
    SublistFacts(s, rest);
    SubsequenceStep(s, rest, s[0].Dir?);
  }

  /** Order and uniqueness carry over from `s` to a list made of `s[0]` and
      elements of `s[1..]` in their order. */
  lemma SublistFacts(s: seq<Node>, rest: seq<Node>)
    requires |s| > 0
    requires forall e :: e in rest ==> e in s[1..]
    requires Ascending(s[1..]) ==> Ascending(rest)
    requires DistinctNames(s[1..]) ==> DistinctNames(rest)
    ensures Ascending(s) ==> Ascending([s[0]] + rest) && Ascending(rest)
    ensures DistinctNames(s) ==> DistinctNames([s[0]] + rest) && DistinctNames(rest)
  {
    if Ascending(s) {
      assert Ascending(s[1..]);
      SublistAscending(s, rest);
    }
    if DistinctNames(s) {
      assert DistinctNames(s[1..]);
      SublistDistinct(s, rest);
    }
  }

  lemma SublistAscending(s: seq<Node>, rest: seq<Node>)
    requires |s| > 0 && Ascending(s) && Ascending(rest)
    requires forall e :: e in rest ==> e in s[1..]
    ensures Ascending([s[0]] + rest)
  {
    var r := [s[0]] + rest;
    forall i, j | 0 <= i < j < |r| ensures NameLe(r[i].name, r[j].name) {
      if i == 0 {
        assert r[j] == rest[j - 1] && r[j] in s[1..];
        var k :| 0 <= k < |s[1..]| && s[1..][k] == r[j];
        assert s[k + 1] == r[j];
      } else {
        assert r[i] == rest[i - 1] && r[j] == rest[j - 1];
      }
    }
  }

  lemma SublistDistinct(s: seq<Node>, rest: seq<Node>)
    requires |s| > 0 && DistinctNames(s) && DistinctNames(rest)
    requires forall e :: e in rest ==> e in s[1..]
    ensures DistinctNames([s[0]] + rest)
  {
    var r := [s[0]] + rest;
    forall i, j | 0 <= i < j < |r| ensures r[i].name != r[j].name {
      if i == 0 {
        assert r[j] == rest[j - 1] && r[j] in s[1..];
        var k :| 0 <= k < |s[1..]| && s[1..][k] == r[j];
        assert s[k + 1] == r[j];
      } else {
        assert r[i] == rest[i - 1] && r[j] == rest[j - 1];
      }
    }
  }

  /** The entries of directory `d` (relative path `rel`) that get a line, in
      the order they get it. */
  function Survivors(rules: Rules, d: Node, rel: string, dirsOnly: bool): (r: seq<Node>)
    requires d.Dir?
    ensures forall e :: e in r <==> e in d.children && Keeps(rules, rel, e.name, e.File?) && (dirsOnly ==> e.Dir?)
    ensures Ascending(r)
    ensures DistinctNames(d.children) ==> DistinctNames(r) && StrictlyAscending(r)
  {
    var sorted := SortByName(d.children);
    assert forall e :: e in sorted <==> e in d.children by {
      forall e ensures e in sorted <==> e in d.children {
        assert e in sorted <==> e in multiset(sorted);
        assert e in d.children <==> e in multiset(d.children);
      }
    }
    var kept := KeptEntries(rules, rel, sorted);
    if dirsOnly then Directories(kept) else kept
  }

  /** `print_dir_structure(d, ..., prefix, ..., current_rel_path = rel)`. */
  function Walk(rules: Rules, d: Node, prefix: string, rel: string, opts: Options): Result<Rendering, string>
    decreases d, 1
  {
    if !d.Dir? || !d.listable then Failure(rel)
    else WalkEntries(rules, d, Survivors(rules, d, rel, opts.dirsOnly), prefix, rel, opts)
  }

  /** The lines of the surviving `entries` of `parent`; the first of them is
      the last survivor exactly when it is the only one left. */
  function WalkEntries(rules: Rules, parent: Node, entries: seq<Node>, prefix: string, rel: string, opts: Options)
    : Result<Rendering, string>
    requires parent.Dir?
    requires forall e :: e in entries ==> e in parent.children
    decreases parent, 0, |entries|
  {
    if |entries| == 0 then Success(Rendering([], []))
    else
      var c := entries[0];
      var last := |entries| == 1;
      var line := prefix + Glyph(last) + c.name;
      var childRel := ChildPath(rel, c.name);
      ChildBelow(c, parent);
      if c.Dir? then
        var sub :- Walk(rules, c, prefix + Extension(last), childRel, opts);
        var rest :- WalkEntries(rules, parent, entries[1..], prefix, rel, opts);
        Success(Rendering([line] + sub.lines + rest.lines, sub.captures + rest.captures))
      else if !opts.dirsOnly then
        var rest :- WalkEntries(rules, parent, entries[1..], prefix, rel, opts);
        var own := if opts.showContents then [Capture(childRel, ReadFileContents(c.read))] else [];
        Success(Rendering([line] + rest.lines, own + rest.captures))
      else
        WalkEntries(rules, parent, entries[1..], prefix, rel, opts)
  }

  // ---------------------------------------------------------------------------
  // Reference: the visits of a depth-first walk, as records
  // ---------------------------------------------------------------------------

  /** One rendered entry: its node, the names on its path from the scan root,
      whether each enclosing directory below the root was the last survivor in
      its own directory (`trail`), and whether the entry itself is (`last`). */
  datatype Visit = Visit(node: Node, parts: seq<string>, trail: seq<bool>, last: bool)

  /** The visits beneath `d`, whose path is `parts`, in depth-first pre-order. */
  function Preorder(rules: Rules, d: Node, parts: seq<string>, trail: seq<bool>, dirsOnly: bool): seq<Visit>
    decreases d, 1
  {
    if !d.Dir? || !d.listable then []
    else PreorderEntries(rules, d, Survivors(rules, d, Join(parts), dirsOnly), parts, trail, dirsOnly)
  }

  function PreorderEntries(rules: Rules, parent: Node, entries: seq<Node>, parts: seq<string>, trail: seq<bool>, dirsOnly: bool)
    : seq<Visit>
    requires parent.Dir?
    requires forall e :: e in entries ==> e in parent.children
    decreases parent, 0, |entries|
  {
    if |entries| == 0 then []
    else
      var c := entries[0];
      var v := Visit(c, parts + [c.name], trail, |entries| == 1);
      ChildBelow(c, parent);
      var below := if c.Dir? then Preorder(rules, c, v.parts, trail + [v.last], dirsOnly) else [];
      [v] + below + PreorderEntries(rules, parent, entries[1..], parts, trail, dirsOnly)
  }

  /** The prefix that the enclosing directories' last-ness flags produce. */
  function Indentation(trail: seq<bool>): string
    decreases |trail|
  {
    if |trail| == 0 then ""
    else Indentation(trail[..|trail| - 1]) + Extension(trail[|trail| - 1])
  }

  function Line(v: Visit): string {
    Indentation(v.trail) + Glyph(v.last) + v.node.name
  }

  function Lines(vs: seq<Visit>): (r: seq<string>)
    ensures |r| == |vs|
    ensures forall k :: 0 <= k < |vs| ==> r[k] == Line(vs[k])
    decreases |vs|
  {
    if |vs| == 0 then [] else [Line(vs[0])] + Lines(vs[1..])
  }

  function Captures(vs: seq<Visit>): seq<Capture>
    decreases |vs|
  {
    if |vs| == 0 then []
    else if vs[0].node.File? then
      [Capture(Join(vs[0].parts), ReadFileContents(vs[0].node.read))] + Captures(vs[1..])
    else Captures(vs[1..])
  }

  predicate AllListable(vs: seq<Visit>) {
    forall k :: 0 <= k < |vs| ==> (vs[k].node.Dir? ==> vs[k].node.listable)
  }

  /** The relative path of the first visited directory that cannot be
      listed, or `""` when every visited directory can be. */
  function FirstBlocked(vs: seq<Visit>): string
    decreases |vs|
  {
    if |vs| == 0 then ""
    else if vs[0].node.Dir? && !vs[0].node.listable then Join(vs[0].parts)
    else FirstBlocked(vs[1..])
  }
}

=== FILE: version_agreement.dfy ===
/** When the directory patterns are plain names, the current walker prints
    the tree the earlier walker printed, as long as no directory's name
    matches a file pattern (the earlier walker tests those against
    directories too). */
module VersionAgreement {
  import opened Wrappers
  import opened Glob
  import opened Paths
  import opened FsTree
  import opened Exclusion
  import opened TreeWalk
  import opened Preferences
  import opened EarlierWalker
  import opened WalkProperties
  import opened Program

  /** Directory patterns without `/` and without glob characters. */
  predicate PlainNames(patterns: set<string>) {
    forall p :: p in patterns ==> NoMeta(p) && SlashFree(p)
  }

  /** No directory anywhere below `d` has a name a file pattern matches. */
  predicate NoDirectoryMatches(d: Node, files: set<string>)
    decreases d
  {
    d.Dir? ==> forall k :: 0 <= k < |d.children| ==>
                 (d.children[k].Dir? ==> !FileExcluded(d.children[k].name, files))
                 && NoDirectoryMatches(d.children[k], files)
  }

  /** Path components that are valid names none of which is excluded. */
  predicate KeptPath(parts: seq<string>, dirs: set<string>) {
    forall j :: 0 <= j < |parts| ==> ValidName(parts[j]) && parts[j] !in dirs
  }

  /** For plain patterns, a path whose directories are all kept is excluded
      exactly when its last name is one of the patterns. */
  lemma PlainPathExcluded(dirs: set<string>, parts: seq<string>, name: string)
    requires PlainNames(dirs) && KeptPath(parts, dirs) && ValidName(name)
    ensures PathExcluded(ChildPath(Join(parts), name), dirs) <==> name in dirs
  {
    var ps := parts + [name];
    assert forall k :: 0 <= k < |ps| ==> SlashFree(ps[k]) && ps[k] != "" by {
      forall k | 0 <= k < |ps| ensures SlashFree(ps[k]) && ps[k] != "" {
        if k < |parts| { assert ValidName(parts[k]); }
      }
    }
    ChildPathJoin(parts, name);
    PathExcludedByComponents(ps, dirs);
    SplitJoin(ps);
    if Join(ps) in dirs {
      SplitSlashFree(Join(ps));
      assert |ps| == 1 && ps[0] == name;
    }
    if exists p, k :: p in dirs && 0 <= k < |ps| && Matches(ps[k], p) {
      var p, k :| p in dirs && 0 <= k < |ps| && Matches(ps[k], p);
      PlainPatternMatchesOnlyItself(ps[k], p);
      assert ps[k] in dirs;
      assert k == |parts|;
    }
    if name in dirs {
      PlainPatternMatchesOnlyItself(name, name);
      assert ps[|parts|] == name;
    }
  }

  /** Both rule sets keep the same entries of a kept directory, under the
      conditions above. */
  lemma PlainKeepsAgree(dirs: set<string>, files: set<string>, parts: seq<string>, e: Node)
    requires PlainNames(dirs) && KeptPath(parts, dirs) && ValidName(e.name)
    requires e.Dir? ==> !FileExcluded(e.name, files)
    ensures Keeps(PathRules(dirs, files), Join(parts), e.name, e.File?)
        <==> Keeps(NameRules(dirs, files), Join(parts), e.name, e.File?)
  {
    PlainPathExcluded(dirs, parts, e.name);
  }

  lemma {:induction false} KeptEntriesAgree(dirs: set<string>, files: set<string>, parts: seq<string>, s: seq<Node>)
    requires PlainNames(dirs) && KeptPath(parts, dirs)
    requires forall k :: 0 <= k < |s| ==> ValidName(s[k].name) && (s[k].Dir? ==> !FileExcluded(s[k].name, files))
    ensures KeptEntries(PathRules(dirs, files), Join(parts), s) == KeptEntries(NameRules(dirs, files), Join(parts), s)
    decreases |s|
  {
    if |s| > 0 {
      PlainKeepsAgree(dirs, files, parts, s[0]);
      KeptEntriesAgree(dirs, files, parts, s[1..]);
    }
  }

  lemma SurvivorsAgree(dirs: set<string>, files: set<string>, d: Node, parts: seq<string>, dirsOnly: bool)
    requires d.Dir? && WellFormed(d) && NoDirectoryMatches(d, files)
    requires PlainNames(dirs) && KeptPath(parts, dirs)
    ensures Survivors(PathRules(dirs, files), d, Join(parts), dirsOnly)
         == Survivors(NameRules(dirs, files), d, Join(parts), dirsOnly)
  {
    var sorted := SortByName(d.children);
    forall k | 0 <= k < |sorted|
      ensures ValidName(sorted[k].name) && (sorted[k].Dir? ==> !FileExcluded(sorted[k].name, files))
    {
      assert sorted[k] in multiset(d.children);
      var j :| 0 <= j < |d.children| && d.children[j] == sorted[k];
    }
    KeptEntriesAgree(dirs, files, parts, sorted);
  }

  /** The two walkers render the same lines and captures, and fail alike. */
  lemma {:induction false} WalksAgree(dirs: set<string>, files: set<string>, d: Node, parts: seq<string>,
                                      prefix: string, opts: Options)
    requires WellFormed(d) && NoDirectoryMatches(d, files)
    requires PlainNames(dirs) && KeptPath(parts, dirs)
    ensures Walk(PathRules(dirs, files), d, prefix, Join(parts), opts)
         == Walk(NameRules(dirs, files), d, prefix, Join(parts), opts)
    decreases d, 1
  {
    if d.Dir? && d.listable {
      SurvivorsAgree(dirs, files, d, parts, opts.dirsOnly);
      var s := Survivors(NameRules(dirs, files), d, Join(parts), opts.dirsOnly);
      EntriesAgree(dirs, files, d, s, parts, prefix, opts);
    }
  }

  lemma {:induction false} EntriesAgree(dirs: set<string>, files: set<string>, parent: Node, entries: seq<Node>,
                                        parts: seq<string>, prefix: string, opts: Options)
    requires parent.Dir? && WellFormed(parent) && NoDirectoryMatches(parent, files)
    requires PlainNames(dirs) && KeptPath(parts, dirs)
    requires forall e :: e in entries ==> e in parent.children && e.name !in dirs
    ensures WalkEntries(PathRules(dirs, files), parent, entries, prefix, Join(parts), opts)
         == WalkEntries(NameRules(dirs, files), parent, entries, prefix, Join(parts), opts)
    decreases parent, 0, |entries|
  {
    if |entries| > 0 {
      var c := entries[0];
      assert c in entries;
      ChildBelow(c, parent);
      var k :| 0 <= k < |parent.children| && parent.children[k] == c;
      assert WellFormed(c) && NoDirectoryMatches(c, files);
      EntriesAgree(dirs, files, parent, entries[1..], parts, prefix, opts);
      if c.Dir? {
        var cparts := parts + [c.name];
        assert KeptPath(cparts, dirs);
        assert NonEmptyParts(parts) by {
          forall j | 0 <= j < |parts| ensures parts[j] != "" { assert ValidName(parts[j]); }
        }
        ChildPathJoin(parts, c.name);
        WalksAgree(dirs, files, c, cparts, prefix + Extension(|entries| == 1), opts);
      }
    }
  }

  /** Without `--show-contents`, the two programs print the same text for a
      directory whose effective directory patterns are plain names and in
      which no directory's name matches a file pattern. */
  lemma ProgramsAgree(prefs: Prefs, inv: Invocation, root: Node)
    requires WellFormed(root) && root.Dir? && !inv.showContents
    requires PlainNames(Effective(prefs, inv.adjust).excludeDirs)
    requires NoDirectoryMatches(root, Effective(prefs, inv.adjust).excludeFiles)
    ensures CurrentMain(prefs, inv, Some(root)) == EarlierMain(prefs, inv, Some(root))
  {
    var eff := Effective(prefs, inv.adjust);
    var opts := Options(inv.dirsOnly, false);
    assert Join([]) == "";
    WalksAgree(eff.excludeDirs, eff.excludeFiles, root, [], "", opts);
    EarlierMatchesEngine(eff.excludeDirs, eff.excludeFiles, root, "", "", inv.dirsOnly);
  }

  /** The built-in directory names are plain names, so with the defaults the
      programs agree on every tree without a directory called `LICENSE`. */
  lemma DefaultsArePlain()
    ensures PlainNames(Defaults.excludeDirs)
  {
    forall p | p in Defaults.excludeDirs ensures NoMeta(p) && SlashFree(p) {
      assert forall k :: 0 <= k < |p| ==> p[k] != '*' && p[k] != '?' && p[k] != '[' && p[k] != '/';
    }
  }
}

=== FILE: walk_properties.dfy ===
/** What the renderer promises, proved against the pre-order reference. */
module WalkProperties {
  import opened Wrappers
  import opened Paths
  import opened FsTree
  import opened Exclusion
  import opened FileText
  import opened TreeWalk

  predicate NonEmptyParts(parts: seq<string>) {
    forall k :: 0 <= k < |parts| ==> parts[k] != ""
  }

  /** A rendering result says the same as a list of visits: it succeeds
      exactly when every visited directory could be listed, and then its
      lines are the visits' lines and its captures the visited files';
      otherwise it fails with `rel` when the directory walked (at `rel`)
      cannot be listed itself, and else with the first visited directory
      that cannot be. */
  predicate Agree(w: Result<Rendering, string>, pre: seq<Visit>, show: bool, listable: bool, rel: string) {
    && (w.Success? <==> listable && AllListable(pre))
    && (w.Success? ==> w.value.lines == Lines(pre) && w.value.captures == (if show then Captures(pre) else []))
    && (w.Failure? ==> w.error == if listable then FirstBlocked(pre) else rel)
  }

  // ---------------------------------------------------------------------------
  // Helpers on lists of visits
  // ---------------------------------------------------------------------------

  lemma {:induction false} LinesAppend(a: seq<Visit>, b: seq<Visit>)
    ensures Lines(a + b) == Lines(a) + Lines(b)
  {
  }

  lemma {:induction false} CapturesAppend(a: seq<Visit>, b: seq<Visit>)
    ensures Captures(a + b) == Captures(a) + Captures(b)
    decreases |a|
  {
    if |a| > 0 {
      assert (a + b)[1..] == a[1..] + b;
      CapturesAppend(a[1..], b);
    } else {
      assert a + b == b;
    }
  }

  lemma AllListableAppend(a: seq<Visit>, b: seq<Visit>)
    ensures AllListable(a + b) <==> AllListable(a) && AllListable(b)
  {
    if AllListable(a) && AllListable(b) {
      forall k | 0 <= k < |a + b| ensures (a + b)[k].node.Dir? ==> (a + b)[k].node.listable {
        if k >= |a| { assert (a + b)[k] == b[k - |a|]; }
      }
    }
    if AllListable(a + b) {
      forall k | 0 <= k < |a| ensures a[k].node.Dir? ==> a[k].node.listable {
        assert (a + b)[k] == a[k];
      }
      forall k | 0 <= k < |b| ensures b[k].node.Dir? ==> b[k].node.listable {
        assert (a + b)[|a| + k] == b[k];
      }
    }
  }

  /** `FirstBlocked` names the first visit, in order, that is an unlistable
      directory, and is empty when there is none. */
  lemma {:induction false} FirstBlockedIsFirst(vs: seq<Visit>)
    ensures AllListable(vs) ==> FirstBlocked(vs) == ""
    ensures !AllListable(vs) ==>
              exists k :: 0 <= k < |vs| && vs[k].node.Dir? && !vs[k].node.listable
                          && AllListable(vs[..k]) && FirstBlocked(vs) == Join(vs[k].parts)
    decreases |vs|
  {
    if |vs| > 0 {
      AllListableAppend([vs[0]], vs[1..]);
      assert [vs[0]] + vs[1..] == vs;
      FirstBlockedIsFirst(vs[1..]);
      if vs[0].node.Dir? && !vs[0].node.listable {
        assert vs[..0] == [];
      } else if !AllListable(vs[1..]) {
        var k :| 0 <= k < |vs[1..]| && vs[1..][k].node.Dir? && !vs[1..][k].node.listable
                 && AllListable(vs[1..][..k]) && FirstBlocked(vs[1..]) == Join(vs[1..][k].parts);
        AllListableAppend([vs[0]], vs[1..][..k]);
        assert [vs[0]] + vs[1..][..k] == vs[..k + 1];
      }
    }
  }

  /** The first blocked directory of two lists in a row is the first list's,
      or the second's when the first has none. */
  lemma {:induction false} FirstBlockedAppend(a: seq<Visit>, b: seq<Visit>)
    ensures FirstBlocked(a + b) == if AllListable(a) then FirstBlocked(b) else FirstBlocked(a)
    decreases |a|
  {
    if |a| == 0 {
      assert a + b == b;
    } else {
      assert (a + b)[1..] == a[1..] + b;
      AllListableAppend([a[0]], a[1..]);
      assert [a[0]] + a[1..] == a;
      FirstBlockedAppend(a[1..], b);
    }
  }

  lemma IndentationSnoc(trail: seq<bool>, last: bool)
    ensures Indentation(trail + [last]) == Indentation(trail) + Extension(last)
  {
    assert (trail + [last])[..|trail|] == trail;
  }

  lemma ChildWellFormed(c: Node, parent: Node)
    requires parent.Dir? && WellFormed(parent) && c in parent.children
    ensures WellFormed(c)
  {
    var k :| 0 <= k < |parent.children| && parent.children[k] == c;
  }

  // ---------------------------------------------------------------------------
  // The renderer agrees with the reference
  // ---------------------------------------------------------------------------

  /** Rendering a directory produces exactly the lines and captures of its
      pre-order visits, and fails exactly when the directory itself or a
      visited directory beneath it cannot be listed. */
  lemma {:induction false} WalkAgrees(rules: Rules, d: Node, parts: seq<string>, trail: seq<bool>, opts: Options)
    requires WellFormed(d) && NonEmptyParts(parts)
    ensures Agree(Walk(rules, d, Indentation(trail), Join(parts), opts),
                  Preorder(rules, d, parts, trail, opts.dirsOnly), opts.showContents, d.Dir? && d.listable, Join(parts))
    decreases d, 1
  {
    if d.Dir? && d.listable {
      var entries := Survivors(rules, d, Join(parts), opts.dirsOnly);
      WalkEntriesAgree(rules, d, entries, parts, trail, opts);
    }
  }

  lemma {:induction false} WalkEntriesAgree(rules: Rules, parent: Node, entries: seq<Node>, parts: seq<string>, trail: seq<bool>, opts: Options)
    requires parent.Dir? && WellFormed(parent) && NonEmptyParts(parts)
    requires forall e :: e in entries ==> e in parent.children
    requires opts.dirsOnly ==> forall e :: e in entries ==> e.Dir?
    ensures Agree(WalkEntries(rules, parent, entries, Indentation(trail), Join(parts), opts),
                  PreorderEntries(rules, parent, entries, parts, trail, opts.dirsOnly), opts.showContents, true, Join(parts))
    decreases parent, 0, |entries|
  {
    if |entries| > 0 {
      var c := entries[0];
      var last := |entries| == 1;
      var cparts := parts + [c.name];
      ChildBelow(c, parent);
      ChildWellFormed(c, parent);
      assert NonEmptyParts(cparts);
      ChildPathJoin(parts, c.name);
      IndentationSnoc(trail, last);
      WalkEntriesAgree(rules, parent, entries[1..], parts, trail, opts);
      if c.Dir? {
        WalkAgrees(rules, c, cparts, trail + [last], opts);
        DirEntry(rules, parent, entries, parts, trail, opts);
      } else {
        assert c in entries;
        FileEntry(rules, parent, entries, parts, trail, opts);
      }
    }
  }

  /** The first entry is a directory: unfold one step of both sides. */
  lemma DirEntry(rules: Rules, parent: Node, entries: seq<Node>, parts: seq<string>, trail: seq<bool>, opts: Options)
    requires parent.Dir? && |entries| > 0 && entries[0].Dir?
    requires Join(parts + [entries[0].name]) == ChildPath(Join(parts), entries[0].name)
    requires forall e :: e in entries ==> e in parent.children
    requires var c := entries[0]; var last := |entries| == 1;
             Agree(Walk(rules, c, Indentation(trail) + Extension(last), ChildPath(Join(parts), c.name), opts),
                   Preorder(rules, c, parts + [c.name], trail + [last], opts.dirsOnly), opts.showContents, c.listable,
                   ChildPath(Join(parts), c.name))
    requires Agree(WalkEntries(rules, parent, entries[1..], Indentation(trail), Join(parts), opts),
                   PreorderEntries(rules, parent, entries[1..], parts, trail, opts.dirsOnly), opts.showContents, true, Join(parts))
    ensures Agree(WalkEntries(rules, parent, entries, Indentation(trail), Join(parts), opts),
                  PreorderEntries(rules, parent, entries, parts, trail, opts.dirsOnly), opts.showContents, true, Join(parts))
  {
    var c := entries[0];
    var last := |entries| == 1;
    var v := Visit(c, parts + [c.name], trail, last);
    DirStep(WalkEntries(rules, parent, entries, Indentation(trail), Join(parts), opts),
            Walk(rules, c, Indentation(trail) + Extension(last), ChildPath(Join(parts), c.name), opts),
            WalkEntries(rules, parent, entries[1..], Indentation(trail), Join(parts), opts),
            v, Preorder(rules, c, parts + [c.name], trail + [last], opts.dirsOnly),
            PreorderEntries(rules, parent, entries[1..], parts, trail, opts.dirsOnly), opts.showContents, Join(parts));
  }

  /** The first entry is a file, so `dirsOnly` is off: unfold one step of
      both sides. */
  lemma FileEntry(rules: Rules, parent: Node, entries: seq<Node>, parts: seq<string>, trail: seq<bool>, opts: Options)
    requires parent.Dir? && |entries| > 0 && entries[0].File? && !opts.dirsOnly
    requires forall e :: e in entries ==> e in parent.children
    requires Join(parts + [entries[0].name]) == ChildPath(Join(parts), entries[0].name)
    requires Agree(WalkEntries(rules, parent, entries[1..], Indentation(trail), Join(parts), opts),
                   PreorderEntries(rules, parent, entries[1..], parts, trail, opts.dirsOnly), opts.showContents, true, Join(parts))
    ensures Agree(WalkEntries(rules, parent, entries, Indentation(trail), Join(parts), opts),
                  PreorderEntries(rules, parent, entries, parts, trail, opts.dirsOnly), opts.showContents, true, Join(parts))
  {
    var v := Visit(entries[0], parts + [entries[0].name], trail, |entries| == 1);
    var restP := PreorderEntries(rules, parent, entries[1..], parts, trail, opts.dirsOnly);
    assert PreorderEntries(rules, parent, entries, parts, trail, opts.dirsOnly) == [v] + [] + restP;
    assert [v] + [] + restP == [v] + restP;
    FileStep(WalkEntries(rules, parent, entries, Indentation(trail), Join(parts), opts),
             WalkEntries(rules, parent, entries[1..], Indentation(trail), Join(parts), opts),
             v, restP, opts.showContents, Join(parts));
  }

  /** The step for a directory entry: its line, then its own block, then the
      rest of the level. */
  lemma DirStep(w: Result<Rendering, string>, sub: Result<Rendering, string>, rest: Result<Rendering, string>,
                v: Visit, below: seq<Visit>, restP: seq<Visit>, show: bool, rel: string)
    requires v.node.Dir?
    requires w == (if sub.Failure? then Failure(sub.error)
                   else if rest.Failure? then Failure(rest.error)
                   else Success(Rendering([Line(v)] + sub.value.lines + rest.value.lines,
                                          sub.value.captures + rest.value.captures)))
    requires Agree(sub, below, show, v.node.listable, Join(v.parts)) && Agree(rest, restP, show, true, rel)
    ensures Agree(w, [v] + below + restP, show, true, rel)
  {
    AllListableAppend([v] + below, restP);
    AllListableAppend([v], below);
    DirStepContents(v, below, restP);
    FirstBlockedAppend([v] + below, restP);
    FirstBlockedAppend([v], below);
    assert [v][1..] == [];
  }

  lemma DirStepContents(v: Visit, below: seq<Visit>, restP: seq<Visit>)
    requires v.node.Dir?
    ensures Lines([v] + below + restP) == [Line(v)] + Lines(below) + Lines(restP)
    ensures Captures([v] + below + restP) == Captures(below) + Captures(restP)
  {
    LinesAppend([v] + below, restP);
    LinesAppend([v], below);
    CapturesAppend([v] + below, restP);
    CapturesAppend([v], below);
    assert Captures([v]) == [];
  }

  /** The step for a file entry: its line and, when contents are shown, its
      capture, then the rest of the level. */
  lemma FileStep(w: Result<Rendering, string>, rest: Result<Rendering, string>,
                 v: Visit, restP: seq<Visit>, show: bool, rel: string)
    requires v.node.File?
    requires w == (if rest.Failure? then Failure(rest.error)
                   else Success(Rendering([Line(v)] + rest.value.lines,
                                          (if show then [Capture(Join(v.parts), ReadFileContents(v.node.read))] else [])
                                          + rest.value.captures)))
    requires Agree(rest, restP, show, true, rel)
    ensures Agree(w, [v] + restP, show, true, rel)
  {
    AllListableAppend([v], restP);
    FirstBlockedAppend([v], restP);
    assert [v][1..] == [];
    LinesAppend([v], restP);
    CapturesAppend([v], restP);
    assert Captures([v]) == [Capture(Join(v.parts), ReadFileContents(v.node.read))];
  }
}

module WalkShape {
  import opened Wrappers
  import opened Paths
  import opened FsTree
  import opened Exclusion
  import opened FileText
  import opened TreeWalk
  import opened WalkProperties

  /** Every enclosing directory on the path below depth `from` was kept, by
      the same rules, at its own level. */
  predicate AncestorsKept(rules: Rules, ps: seq<string>, from: nat) {
    forall j :: from <= j < |ps| - 1 ==> Keeps(rules, Join(ps[..j]), ps[j], false)
  }

  /** Where a visit beneath the directory at `parts` (with flags `trail`)
      can sit, and why it was not left out. */
  predicate VisitBeneath(rules: Rules, v: Visit, parts: seq<string>, trail: seq<bool>, dirsOnly: bool) {
    && Placed(v, parts, trail)
    && Keeps(rules, Join(v.parts[..|v.parts| - 1]), v.node.name, v.node.File?)
    && AncestorsKept(rules, v.parts, |parts|)
    && (dirsOnly ==> v.node.Dir?)
  }

  /** The visit's path extends `parts` by valid names ending in its own, and
      its flags extend `trail` by one per directory in between. */
  predicate Placed(v: Visit, parts: seq<string>, trail: seq<bool>) {
    && |v.parts| > |parts|
    && v.parts[..|parts|] == parts
    && v.parts[|v.parts| - 1] == v.node.name
    && (forall k :: |parts| <= k < |v.parts| ==> ValidName(v.parts[k]))
    && |v.trail| == |trail| + |v.parts| - |parts| - 1
    && v.trail[..|trail|] == trail
  }

  predicate AllBeneath(rules: Rules, vs: seq<Visit>, parts: seq<string>, trail: seq<bool>, dirsOnly: bool) {
    forall k :: 0 <= k < |vs| ==> VisitBeneath(rules, vs[k], parts, trail, dirsOnly)
  }

  lemma AllBeneathAppend(rules: Rules, a: seq<Visit>, b: seq<Visit>, parts: seq<string>, trail: seq<bool>, dirsOnly: bool)
    requires AllBeneath(rules, a, parts, trail, dirsOnly) && AllBeneath(rules, b, parts, trail, dirsOnly)
    ensures AllBeneath(rules, a + b, parts, trail, dirsOnly)
  {
    forall k | 0 <= k < |a + b| ensures VisitBeneath(rules, (a + b)[k], parts, trail, dirsOnly) {
      if k >= |a| { assert (a + b)[k] == b[k - |a|]; } else { assert (a + b)[k] == a[k]; }
    }
  }

  /** Every visit lies beneath the directory walked, was kept by the rules,
      and so was every directory on its way down. */
  lemma {:induction false} PreorderBeneath(rules: Rules, d: Node, parts: seq<string>, trail: seq<bool>, dirsOnly: bool)
    requires WellFormed(d)
    ensures AllBeneath(rules, Preorder(rules, d, parts, trail, dirsOnly), parts, trail, dirsOnly)
    decreases d, 1
  {
    if d.Dir? && d.listable {
      PreorderEntriesBeneath(rules, d, Survivors(rules, d, Join(parts), dirsOnly), parts, trail, dirsOnly);
    }
  }

  lemma {:induction false} PreorderEntriesBeneath(rules: Rules, parent: Node, entries: seq<Node>, parts: seq<string>, trail: seq<bool>, dirsOnly: bool)
    requires parent.Dir? && WellFormed(parent)
    requires forall e :: e in entries ==> e in Survivors(rules, parent, Join(parts), dirsOnly)
    ensures forall e :: e in entries ==> e in parent.children
    ensures AllBeneath(rules, PreorderEntries(rules, parent, entries, parts, trail, dirsOnly), parts, trail, dirsOnly)
    decreases parent, 0, |entries|
  {
    if |entries| > 0 {
      var c := entries[0];
      var last := |entries| == 1;
      var cparts := parts + [c.name];
      var ctrail := trail + [last];
      var v := Visit(c, cparts, trail, last);
      assert c in entries;
      ChildBelow(c, parent);
      ChildWellFormed(c, parent);
      PreorderEntriesBeneath(rules, parent, entries[1..], parts, trail, dirsOnly);
      var restP := PreorderEntries(rules, parent, entries[1..], parts, trail, dirsOnly);
      assert cparts[..|cparts| - 1] == parts;
      assert cparts[..|parts|] == parts;
      assert trail[..|trail|] == trail;
      assert VisitBeneath(rules, v, parts, trail, dirsOnly);
      assert AllBeneath(rules, [v], parts, trail, dirsOnly);
      var below := if c.Dir? then Preorder(rules, c, cparts, ctrail, dirsOnly) else [];
      if c.Dir? {
        PreorderBeneath(rules, c, cparts, ctrail, dirsOnly);
        forall k | 0 <= k < |below| ensures VisitBeneath(rules, below[k], parts, trail, dirsOnly) {
          Deeper(rules, below[k], c, parts, trail, last, dirsOnly);
        }
      }
      AllBeneathAppend(rules, [v], below, parts, trail, dirsOnly);
      AllBeneathAppend(rules, [v] + below, restP, parts, trail, dirsOnly);
    }
  }

  /** A visit beneath a kept directory entry `c` lies beneath `c`'s parent. */
  lemma Deeper(rules: Rules, w: Visit, c: Node, parts: seq<string>, trail: seq<bool>, last: bool, dirsOnly: bool)
    requires c.Dir? && ValidName(c.name)
    requires Keeps(rules, Join(parts), c.name, false)
    requires VisitBeneath(rules, w, parts + [c.name], trail + [last], dirsOnly)
    ensures VisitBeneath(rules, w, parts, trail, dirsOnly)
  {
    PlacedDeeper(w, parts, trail, c.name, last);
    AncestorsKeptStep(rules, w.parts, parts, c.name);
  }

  lemma PlacedDeeper(w: Visit, parts: seq<string>, trail: seq<bool>, name: string, last: bool)
    requires ValidName(name)
    requires Placed(w, parts + [name], trail + [last])
    ensures Placed(w, parts, trail) && w.parts[|parts|] == name
  {
    var cparts := parts + [name];
    PrefixOfPrefix(w.parts, cparts, parts);
    assert w.parts[|parts|] == name by {
      assert w.parts[|parts|] == w.parts[..|cparts|][|parts|];
    }
    PrefixOfPrefix(w.trail, trail + [last], trail);
  }

  /** One more kept directory on top of the ancestors kept below it. */
  lemma AncestorsKeptStep(rules: Rules, ps: seq<string>, parts: seq<string>, name: string)
    requires |ps| > |parts| && ps[..|parts|] == parts && ps[|parts|] == name
    requires Keeps(rules, Join(parts), name, false)
    requires AncestorsKept(rules, ps, |parts| + 1)
    ensures AncestorsKept(rules, ps, |parts|)
  {
    forall j | |parts| <= j < |ps| - 1 ensures Keeps(rules, Join(ps[..j]), ps[j], false) {
      if j == |parts| {
        assert ps[..j] == parts;
      }
    }
  }

  lemma PrefixOfPrefix<T>(s: seq<T>, a: seq<T>, b: seq<T>)
    requires |a| <= |s| && s[..|a|] == a
    requires |b| <= |a| && a[..|b|] == b
    ensures s[..|b|] == b
  {
    assert s[..|b|] == s[..|a|][..|b|];
  }
}

=== FILE: wrappers.dfy ===
/** Failure-compatible result types shared by the walker model. */
module Wrappers {

  /** A value that may be absent. */
  datatype Option<+T> = None | Some(value: T)

  /** Either a computed value or the error that aborted the computation.
      Usable with `:-`, so an error propagates the way an uncaught Python
      exception unwinds every enclosing call. */
  datatype Result<+T, +E> = Success(value: T) | Failure(error: E) {

    predicate IsFailure() {
      Failure?
    }

    function PropagateFailure<U>(): Result<U, E>
      requires Failure?
    {
      Failure(error)
    }

    function Extract(): T
      requires Success?
    {
      value
    }
  }
}
